=== FILE: README.md ===
# cyapa: a verified model of the Cypress touchpad helper

`cyapa.py` is a small command-line tool that keeps a Cypress APA touchpad
usable under X. Every few seconds it runs one of three jobs on the touchpad,
chosen by exactly one command-line flag:

- `-f`: apply the fixes. Enable the touchpad, turn "Tap Enable" off and turn
  "Button Right Click Zone Enable" on. Each property is written only when it
  does not already hold that value.
- `-a` / `-d`: keep the touchpad enabled or disabled.
- `-m`: the auto-switch. When a Wacom stylus is active, disable the touchpad.
  When both are inactive, or no single stylus can be found (none, or several), enable the touchpad.

The tool works only through the `xinput` command. Plain `xinput` lists the
devices with their ids. `xinput list-props <id>` prints a device's
properties. `set-prop`, `enable` and `disable` change them. When the user
interrupts the loop, the touchpad is enabled again.

The model has six modules:

- `Outcomes`: the Python exceptions the tool raises or lets escape, and the
  results of reads and of statements.
- `PyText`: the Python 2 string built-ins the tool relies on. These are the
  substring test `in`, `split`, `strip` and `int()`, with the numerals `str()`
  prints.
- `Select`: the list comprehension `[l for l in lines if ...]` together with
  the "exactly one line" test made at every call site.
- `Xinput`: what `xinput` manages, as the tool sees it.
  - The device table maps ids to devices, and each device holds named
    integer properties.
  - The text of `xinput list-props` is rendered from that table.
  - The three writing commands are modelled with their effect on the table.
- `CyapaParse`: the functions of the tool that only read. They find the
  device id in the listing, read a property string, read an integer property
  and read "Device Enabled". Lemmas show that each read, applied to the text
  rendered for a table, returns the value stored in the table.
- `Cyapa`: the functions that change device state, as the class `Devices`.
  - It has the device table, the fixed device listing and the log of issued
    commands.
  - Its methods are the conditional writes, the fixes, the auto-switch, the
    polling loop and `main`'s flag check and dispatch.

Python's exceptions are values (`Result`, `Outcome`) that are passed back
unchanged, as uncaught exceptions propagate in the source. The one
`except ValueError` in the tool is modelled as a test of the exception's
class. An AttributeError from a line without an `id=` field passes through
that handler, as in the source.

## Model

| member | source | states |
|---|---|---|
| `Cyapa.SelectAction` | cyapa.py:151-163 | Succeeds exactly when one of the four flags is set, otherwise raises "cyapa.py run with mutually inconsistent arguments". The action chosen is the fixes iff `-f`, enable iff `-a`, disable iff `-d`, auto-switch iff `-m`. |
| `Cyapa.SwitchDecision` | cyapa.py:118-123 | A command is issued exactly when stylus and touchpad are both on or both off. It sets the touchpad to the opposite of the stylus, so afterwards exactly one of them is on. |
| `Cyapa.ReadyKept` | cyapa.py:132-135 | The condition under which every read of an action succeeds survives any change of property values. This keeps the polling loop going. |
| `Cyapa.FixesSteps` | cyapa.py:67-70 | The three steps of the fixes together issue at most three commands, all to the touchpad. They change at most "Device Enabled", "Tap Enable" and the click-zone property. |
| `Cyapa.FixReadySteps` | cyapa.py:67-70 | The later steps of the fixes can still read their properties unambiguously after the earlier steps have written. |
| `Cyapa.FixesOutcome` | cyapa.py:67-70 | "Device Enabled" = 1, "Tap Enable" = 0 and click zone = 1, each set by its own step, all hold at the end. |
| `Cyapa.Devices.constructor` | cyapa.py:12-13 | Starts from a given device table and device listing, with no commands issued. |
| `Cyapa.Devices.Issue` | cyapa.py:60-61 | A `subprocess.call` of a writing command appends it to the log and applies it to the table. |
| `Cyapa.Devices.SetDeviceActive` | cyapa.py:72-80 | Always issues exactly one `xinput enable`/`disable` to the device. Only that device's "Device Enabled" changes, and it becomes 1 or 0. |
| `Cyapa.Devices.SetTouchpadIntProperty` | cyapa.py:55-61 | A failed read raises with nothing issued and the table unchanged. A read equal to `val` issues nothing and leaves the table unchanged. A read differing from `val` issues exactly one `set-prop`. Only `propName` of that device changes. When a command is issued and the device has `propName`, it ends at `val`; for an unambiguous name it ends at `val` in every case. |
| `Cyapa.Devices.CheckSetDeviceActive` | cyapa.py:95-98 | A failed read raises with nothing issued and the table unchanged. No command, and an unchanged table, when "Device Enabled" already equals `onoff` as 1/0; otherwise exactly one enable/disable. Only "Device Enabled" changes. When a command is issued and the device has "Device Enabled", it ends at `onoff`; when that name is unambiguous it ends at `onoff` in every case. |
| `Cyapa.Devices.TouchpadFixes` | cyapa.py:63-70 | At most three commands, all to the touchpad, changing only the three fixed properties. A failing "Device Enabled" read raises with nothing issued and the table unchanged. When the three names read are unambiguous (`FixReady`) the fixes hold afterwards, and when they already held, a run issues nothing and changes nothing, so a second application is a no-op. |
| `Cyapa.Devices.DeactivateTouchpadOnMouse` | cyapa.py:108-123 | Each branch of the source is covered. Without a stylus (ValueError), the touchpad is enabled if it is off, and otherwise nothing changes. A non-ValueError lookup error or a failed read raises with nothing issued and the table unchanged. Otherwise the command is `SwitchDecision`'s, and when it decides on none the table is unchanged. Only the touchpad's "Device Enabled" is ever written, never the stylus, and when a command is issued and the touchpad has that property it ends at the value written. When the names read are unambiguous and the stylus is another device (`Ready`), exactly one of stylus and touchpad ends on, and a settled state is left unchanged. |
| `Cyapa.Devices.RunAction` | cyapa.py:153-163 | One run of the chosen action writes only the touchpad and only that action's properties, with at most 3 (fixes) or 1 commands. When the names read are unambiguous (`Ready`) it settles the state, and a settled state it leaves unchanged with no command. |
| `Cyapa.Devices.Poll` | cyapa.py:132-135 | Repeated runs write only the touchpad and that action's properties. Under `Ready` no run fails, and after the first run the state is settled. Every later run then issues nothing, so the whole loop issues at most one run's commands, and a loop started on a settled state changes nothing. Nothing outside the tool changes the devices between runs. |
| `Cyapa.Devices.PollAndRestore` | cyapa.py:132-141 | After an interrupt the last command is `xinput enable` of the touchpad, and a touchpad that has "Device Enabled" ends enabled, whatever the reads were. Under `Ready` the loop is never cut short by an exception, and at most one run's commands plus the final enable are issued. |
| `Cyapa.Devices.WatchTouchpad` | cyapa.py:128-141 | Once the touchpad is found: a failed first read raises with nothing issued and the table unchanged. Otherwise the loop runs; after an interrupt the last command enables the touchpad, and it ends enabled when it has "Device Enabled". Under `Ready` the interrupt is always reached, after at most one run's commands plus one. |
| `Cyapa.Devices.CheckTouchpadAtInterval` | cyapa.py:126-141 | A touchpad lookup error or a failed first read raises with nothing issued and the table unchanged. Otherwise only the touchpad is written. After an interrupt the last command enables it, and it ends enabled when it has "Device Enabled". Under `Ready` the interrupt is always reached, after at most one run's commands plus one. |
| `Cyapa.Devices.Run` | cyapa.py:144-163 | Inconsistent flags raise the ValueError, and a failed touchpad lookup raises its error; either way nothing is issued and the table is unchanged. Otherwise the chosen action runs on the discovered touchpad only. After an interrupt a touchpad that has "Device Enabled" ends enabled, and under `Ready` the interrupt is always reached. |
| `CyapaParse.Int` | cyapa.py:18 | `int(s)` returns `v` when `s` is a decimal literal of `v` (`Literal`: whitespace, an optional `+`/`-`, at least one digit, whitespace), and only then; anything else raises ValueError. Whitespace between the sign and the digits differs from Python 2 (see `PyText.ParseInt` under Left out). |
| `CyapaParse.TouchpadFilter` | cyapa.py:20-27 | Returns the one line of the listing that contains "cyapa". It raises "No Cypress touchpad found" exactly when no line does, and "Multiple Cypress touchpads found" exactly when two lines do. |
| `CyapaParse.TabletStylusFilter` | cyapa.py:44-51 | Returns the one line that contains both "Wacom" and "stylus". It raises "no Wacom stylus found" exactly when none does, and "multiple Wacom styli found" exactly when two do. |
| `CyapaParse.SearchId` | cyapa.py:15-16 | `re.search` of `id=(\d+)\t` returns a match and no match starts further left. When it finds nothing, no match exists. |
| `CyapaParse.ParseDeviceId` | cyapa.py:15-18 | Without a match it raises AttributeError (`m` is None). Otherwise it returns the value of the digits of the leftmost match, between `id=` and the tab. |
| `CyapaParse.GetDeviceNum` | cyapa.py:11-18 | Passes on the filter's error. When the chosen line has no `id=<digits><tab>` it raises AttributeError. A returned id is the digit value of the leftmost match on the chosen line. |
| `CyapaParse.ListingLineId` | cyapa.py:15-18 | A line `pre + "id=" + n + "\t" + post`, with no match inside `pre`, yields the id `n`. |
| `CyapaParse.TouchpadIdFromListing` | cyapa.py:11-29 | When exactly one listing line contains "cyapa" and it carries `id=<n><tab>`, `get_touchpad_device_num()` returns `n`. |
| `CyapaParse.SecondField` | cyapa.py:41 | `split(':')` gives one piece exactly when there is no colon. Otherwise piece 1 is the text between the first colon and the next one. |
| `CyapaParse.SecondFieldStripped` | cyapa.py:41 | Without a colon it raises IndexError. Otherwise it returns the text between the first two colons with whitespace stripped. |
| `CyapaParse.DevicePropString` | cyapa.py:35-42 | Raises "No X property found" when no line contains the name, and "Multiple X properties found" when two lines do. For the one matching line it returns its stripped second field. No other ValueError arises. |
| `CyapaParse.LastFieldInt` | cyapa.py:92-93 | `int(line.split('\t')[-1])` reads the text after the last tab. |
| `CyapaParse.DeviceActiveValue` | cyapa.py:87-93 | Anything other than exactly one "Device Enabled" line raises "Bad output from xinput". Otherwise the result is `int` of that line's last tab field. |
| `CyapaParse.ReadsPropString` | cyapa.py:32-42 | On the `list-props` text of a table, an unambiguous property name reads back the numeral of its stored value. |
| `CyapaParse.ReadsEnabled` | cyapa.py:82-93 | On the `list-props` text of a table, an unambiguous "Device Enabled" reads back its stored value. |
| `CyapaParse.UnknownDeviceListing` | cyapa.py:33-37 | For a device `xinput` does not know, the output is empty and no property line is found. |
| `CyapaParse.GetDevicePropString` | cyapa.py:32-42 | An unambiguous property reads as the numeral of its value. An unknown device raises "No X property found". |
| `CyapaParse.GetIntProperty` | cyapa.py:56 | `int(get_device_prop_string(...))` is the property's stored value when the name is unambiguous. An unknown device raises "No X property found". |
| `CyapaParse.GetDeviceActive` | cyapa.py:82-93 | Reads the stored "Device Enabled" value when that name is unambiguous. An unknown device raises "Bad output from xinput". |
| `Select.Filter` | cyapa.py:21 | The comprehension keeps only lines that contain every key, and is no longer than its input. |
| `Select.FilterEmpty` | cyapa.py:21-23 | The filtered list is empty exactly when no line is wanted. |
| `Select.FilterTwo` | cyapa.py:21-25 | The filtered list has two or more lines exactly when two different lines are wanted. |
| `Select.FilterOnly` | cyapa.py:21-26 | When line `i` is the only wanted line, the filtered list is `[lines[i]]`. |
| `Select.SelectUnique` | cyapa.py:21-27 | Succeeds exactly when one line is wanted, and returns that line. Raises the "none" error when none is wanted and the "many" error when two are. |
| `PyText.Split` | cyapa.py:21 | `split` returns at least one piece, and no piece contains the separator. |
| `PyText.SplitHead` | cyapa.py:41 | The first piece runs up to the first separator, and the remaining pieces are the split of what follows it. |
| `PyText.JoinSplit` | cyapa.py:21 | Joining the pieces of a split with the separator gives back the text. |
| `PyText.SplitJoin` | cyapa.py:35 | Splitting lines joined by newlines, none containing a newline, gives back those lines. |
| `PyText.SplitLast` | cyapa.py:92 | The last piece of `split('\t')` is the text after the last tab. |
| `PyText.Strip` | cyapa.py:41 | The result is no longer than the input, and neither begins nor ends with whitespace. |
| `PyText.StripRemovesOnlySpace` | cyapa.py:41 | `strip()` removes whitespace on either side and nothing else. |
| `PyText.ParseIntLiteral` | cyapa.py:18 | The model's `int()` accepts a string with value `v` when, and only when, it is whitespace, an optional sign, digits and whitespace, with the sign and digits denoting `v`. Python 2 also accepts whitespace after the sign (see `PyText.ParseInt` under Left out). |
| `PyText.ParseIntDigits` | cyapa.py:17-18 | `int()` of a non-empty digit run is its decimal value. |
| `PyText.ParseIntToString` | cyapa.py:56 | `int()` of `str(v)`, after any leading whitespace, is `v`. |
| `PyText.ParseIntNumeral` | cyapa.py:93 | `int(str(v)) == v`. |
| `Xinput.SetValue` | cyapa.py:60-61 | `set-prop` gives the named property of that device the new value, if it exists. Other devices are unchanged. The device keeps its name, its property names in order and every atom number, and every entry with another name, first or later, keeps its value. |
| `Xinput.Toggle` | cyapa.py:73-80 | `enable` writes 1 and `disable` writes 0 to "Device Enabled" of the device. |
| `Xinput.Apply` | cyapa.py:61 | Running a command gives its property of its device its value, if that property exists. The rest is kept as for `SetValue`: other devices, the device's name, property names and atom numbers, and the value of every entry with another name. |

## Left out

- The processes: `subprocess` and the `xinput` program itself are replaced by the class `Devices`.
  - `list-props` output is rendered from its device table.
  - The plain `xinput` device listing is a fixed text given when the model starts. The source runs `xinput` again on every lookup, so a device plugged in or removed while the tool runs is not modelled.
  - Nothing outside the tool changes property values while it runs: the table changes only by the tool's own commands.
  - The tool failing, exiting non-zero or writing to standard error is not modelled.
  - `set-prop` on a missing property changes nothing.
- Property values are integers only. Float, string, atom and multi-valued properties are not modelled.
- Output and time: `print` and `sleep(3.)` are not modelled.
- `argparse`: the four flags arrive as booleans. Usage errors and `-h` are not modelled.
- `touchpad_onoff` (cyapa.py:100-105) is not modelled, because nothing calls it.
- Regular expressions in general are not modelled. Only the one pattern `id=(\d+)\t` is, with `\d` as the ASCII digits of a byte string.
- Interrupts: the KeyboardInterrupt that ends the polling loop is modelled as the loop stopping after `interruptAfter` runs. An interrupt in the middle of a run, after some of its commands, is not modelled.
- The `else:` branch of the `try` in `check_touchpad_at_interval` is not modelled separately. `while True` never ends normally, so that branch cannot run, and it does the same as the interrupt handler.
- `functools.partial`: the bound arguments are passed directly.
- PyText.ParseInt: Python 2's `int()` accepts whitespace between the sign and the digits (`int('- 5') == -5`: the sign is consumed, then whitespace is skipped before the digits). The model rejects such strings. The tool only parses numerals `xinput` printed, which have no such whitespace.
- CyapaParse.Int: its ValueError message follows the form of Python's message, which is not compared character for character.
- Cyapa.Devices.SetTouchpadIntProperty: the read selects by substring but the write names the property exactly. "Ends at `val`" is therefore stated only for names that only their own line mentions (`Unambiguous`). In other cases only the frame, the one-command bound and the error cases are stated.
- Cyapa.Devices.TouchpadFixes: the fixes holding afterwards is stated only when all three names read are unambiguous (`FixReady`). The reason is the same as for `SetTouchpadIntProperty`. A name that another line also mentions makes the read fail or read the wrong line. In other cases only the frame, the bound and the first read's error are stated.
- Cyapa.Devices.Poll: settling is stated only under `Ready`, for the same reason. For the auto-switch, `Ready` also requires the stylus to be another device than the touchpad. In other cases only the frame is stated.
- Cyapa.Devices.PollAndRestore: when a run raises, the contract states only the frame. It does not state that the final enable is then skipped, because which run raised is not part of the contract.
- Cyapa.Devices.Poll: the loop is modelled as a closed world. Between runs nothing outside the tool changes a device value, and the stylus lookup re-reads the fixed listing where the source runs `xinput` again. Settling and the one-run write bound therefore describe a system nobody else touches while the tool runs.
- Cyapa.Devices.PollAndRestore: the same closed world as `Poll`; "never cut short" and the write bound hold only when nothing outside the tool changes the devices or the listing between runs.
- Cyapa.Devices.WatchTouchpad: the same closed world as `Poll`.
- Cyapa.Devices.CheckTouchpadAtInterval: the same closed world as `Poll`; the interrupt being reached and the write bound describe a system nobody else touches.
- Cyapa.Devices.Run: the same closed world as `Poll`.
- Cyapa.Devices.CheckTouchpadAtInterval: the write bound, and that the interrupt is reached at all, are stated only under `Ready`. Errors raised inside a run are passed on without being named.
- CyapaParse.GetDevicePropString: exact results are stated for unambiguous names and unknown devices. Other listings are covered by `DevicePropString`'s general contract.

=== FILE: cyapa.dfy ===
/** The state-changing half of cyapa.py: the command-line flag check, the
    writes it issues through `xinput`, the fixes it keeps applying to the
    Cypress touchpad, the touchpad/stylus auto-switch, and the polling loop
    that runs one of them until interrupted and then re-enables the
    touchpad. */
module Cyapa {
  import opened Outcomes
  import opened PyText
  import opened Xinput
  import opened CyapaParse

  // ---------------------------------------------------------------- the command line

  /** What `main` runs in the polling loop. */
  datatype Action = Fixes | SetActive(onoff: bool) | AutoSwitch

  /** 1 for a set flag, 0 otherwise, as `sum()` counts booleans. */
  function Count(flag: bool): nat {
    if flag then 1 else 0
  }

  /** `main`: exactly one of `-a`, `-d`, `-m`, `-f` must be given; `-f` runs
      the fixes, `-a`/`-d` keep the touchpad enabled/disabled, `-m` runs the
      auto-switch. */
  function SelectAction(activate: bool, deactivate: bool, deactivateMouse: bool, fixes: bool): (r: Result<Action>)
    ensures r.Ok? <==>
      || (activate && !deactivate && !deactivateMouse && !fixes)
      || (!activate && deactivate && !deactivateMouse && !fixes)
      || (!activate && !deactivate && deactivateMouse && !fixes)
      || (!activate && !deactivate && !deactivateMouse && fixes)
    ensures r.Err? ==> r.error == ValueError("cyapa.py run with mutually inconsistent arguments")
    ensures r.Ok? ==> (r.value == Fixes <==> fixes)
    ensures r.Ok? ==> (r.value == SetActive(true) <==> activate)
    ensures r.Ok? ==> (r.value == SetActive(false) <==> deactivate)
    ensures r.Ok? ==> (r.value == AutoSwitch <==> deactivateMouse)
  {
    if Count(activate) + Count(deactivate) + Count(deactivateMouse) + Count(fixes) != 1 then
      Err(ValueError("cyapa.py run with mutually inconsistent arguments"))
    else if fixes then Ok(Fixes)
    else if activate || deactivate then Ok(SetActive(activate))
    else Ok(AutoSwitch)
  }

  // ---------------------------------------------------------------- what the actions aim for

  /** Python compares an int with a bool as with 1 or 0. */
  function AsInt(b: bool): int {
    if b then 1 else 0
  }

  /** The properties the fixes write. */
  const TapEnable: string := "Tap Enable"
  const ClickZone: string := "Button Right Click Zone Enable"

  /** The properties an action may write. */
  function WrittenProps(action: Action): set<string> {
    if action == Fixes then {DeviceEnabled, TapEnable, ClickZone} else {DeviceEnabled}
  }

  /** The most commands one run of an action issues. */
  function MaxWrites(action: Action): nat {
    if action == Fixes then 3 else 1
  }

  /** Device `id` is enabled in the Python sense: "Device Enabled" is non-zero. */
  predicate IsOn(t: Table, id: int) {
    PropValue(t, id, DeviceEnabled).Some? && PropValue(t, id, DeviceEnabled).value != 0
  }

  /** All three properties the fixes touch can be read unambiguously. */
  ghost predicate FixReady(t: Table, id: int) {
    Unambiguous(t, id, DeviceEnabled) && Unambiguous(t, id, TapEnable) && Unambiguous(t, id, ClickZone)
  }

  /** The touchpad is enabled, tapping is off, the right-click zone is on. */
  predicate FixesHold(t: Table, id: int) {
    PropValue(t, id, DeviceEnabled) == Some(1) &&
    PropValue(t, id, TapEnable) == Some(0) &&
    PropValue(t, id, ClickZone) == Some(1)
  }

  /** The reads an action makes of touchpad `touch` succeed: its properties
      are unambiguous and, for the auto-switch, the stylus is either absent
      (a ValueError) or a different device whose "Device Enabled" is
      unambiguous. */
  ghost predicate Ready(action: Action, listing: string, t: Table, touch: int) {
    match action
    case Fixes => FixReady(t, touch)
    case SetActive(_) => Unambiguous(t, touch, DeviceEnabled)
    case AutoSwitch =>
      Unambiguous(t, touch, DeviceEnabled) &&
      match GetDeviceNum(listing, TabletStylusFilter)
      case Ok(stylus) => stylus != touch && Unambiguous(t, stylus, DeviceEnabled)
      case Err(e) => e.ValueError?
  }

  /** The state an action brings about, in which running it again writes
      nothing: the fixes hold; the touchpad is in the requested state; exactly
      one of stylus and touchpad is enabled (the touchpad when there is no
      stylus). */
  predicate Settled(action: Action, listing: string, t: Table, touch: int) {
    match action
    case Fixes => FixesHold(t, touch)
    case SetActive(onoff) => PropValue(t, touch, DeviceEnabled) == Some(AsInt(onoff))
    case AutoSwitch =>
      match GetDeviceNum(listing, TabletStylusFilter)
      case Ok(stylus) => IsOn(t, stylus) != IsOn(t, touch)
      case Err(_) => IsOn(t, touch)
  }

  /** Readiness depends only on the layout of the table, which writes keep. */
  lemma ReadyKept(action: Action, listing: string, t: Table, u: Table, touch: int)
    requires SameLayout(t, u) && Ready(action, listing, t, touch)
    ensures Ready(action, listing, u, touch)
  {
    UnambiguousKept(t, u, touch, DeviceEnabled);
    if action == Fixes {
      UnambiguousKept(t, u, touch, TapEnable);
      UnambiguousKept(t, u, touch, ClickZone);
    }
    if action == AutoSwitch {
      var tab := GetDeviceNum(listing, TabletStylusFilter);
      if tab.Ok? {
        UnambiguousKept(t, u, tab.value, DeviceEnabled);
      }
    }
  }

  /** `ws` is `before` followed by further commands, all of them to device
      `id`. */
  predicate Appends(ws: seq<Write>, before: seq<Write>, id: int) {
    |before| <= |ws| && ws[..|before|] == before &&
    forall k :: |before| <= k < |ws| ==> ws[k].id == id
  }

  /** Issuing nothing appends nothing and changes nothing. */
  lemma Unchanged(t: Table, ws: seq<Write>, id: int, changed: set<string>)
    ensures Appends(ws, ws, id) && Frame(t, t, id, changed)
  {
    assert ws[..|ws|] == ws;
  }

  /** Appending is transitive. */
  lemma AppendsChain(a: seq<Write>, b: seq<Write>, c: seq<Write>, id: int)
    requires Appends(b, a, id) && Appends(c, b, id)
    ensures Appends(c, a, id)
  {
    assert c[..|a|] == c[..|b|][..|a|];
    forall k | |a| <= k < |b| ensures c[k].id == id {
      assert c[k] == c[..|b|][k];
    }
  }

  /** One step of the fixes: nothing, or at most one command to device `id`
      that changes at most its property `n`. */
  ghost predicate Step(t: Table, u: Table, ws: seq<Write>, vs: seq<Write>, id: int, n: string) {
    (u == t && vs == ws) || (Appends(vs, ws, id) && |vs| <= |ws| + 1 && Frame(t, u, id, {n}))
  }

  /** The three steps of the fixes add up to at most three commands to the
      touchpad that change at most the three properties the fixes write. */
  lemma FixesSteps(t0: Table, t1: Table, t2: Table, t3: Table,
                   i0: seq<Write>, i1: seq<Write>, i2: seq<Write>, i3: seq<Write>, id: int)
    requires Step(t0, t1, i0, i1, id, DeviceEnabled)
    requires Step(t1, t2, i1, i2, id, TapEnable)
    requires Step(t2, t3, i2, i3, id, ClickZone)
    ensures Appends(i3, i0, id) && |i3| <= |i0| + 3 && Frame(t0, t3, id, WrittenProps(Fixes))
  {
    assert Appends(i1, i0, id) && Frame(t0, t1, id, {DeviceEnabled}) by { Unchanged(t0, i0, id, {DeviceEnabled}); }
    assert Appends(i2, i1, id) && Frame(t1, t2, id, {TapEnable}) by { Unchanged(t1, i1, id, {TapEnable}); }
    assert Appends(i3, i2, id) && Frame(t2, t3, id, {ClickZone}) by { Unchanged(t2, i2, id, {ClickZone}); }
    AppendsChain(i0, i1, i2, id);
    AppendsChain(i0, i2, i3, id);
    FrameChain(t0, t1, t2, id, {DeviceEnabled}, {TapEnable});
    FrameChain(t0, t2, t3, id, {DeviceEnabled, TapEnable}, {ClickZone});
    assert {DeviceEnabled, TapEnable} + {ClickZone} == WrittenProps(Fixes);
  }

  /** The properties the later steps of the fixes read stay unambiguous, as
      the earlier steps change values only. */
  lemma FixReadySteps(t0: Table, t1: Table, t2: Table, id: int)
    requires FixReady(t0, id) && SameLayout(t0, t1) && SameLayout(t1, t2)
    ensures Unambiguous(t1, id, TapEnable) && Unambiguous(t1, id, ClickZone) && Unambiguous(t2, id, ClickZone)
  {
    UnambiguousKept(t0, t1, id, TapEnable);
    UnambiguousKept(t0, t1, id, ClickZone);
    UnambiguousKept(t1, t2, id, ClickZone);
  }

  /** The values the three steps of the fixes leave behind add up to the
      fixes holding: each later step writes a different property. */
  lemma FixesOutcome(t1: Table, t2: Table, t3: Table, id: int)
    requires PropValue(t1, id, DeviceEnabled) == Some(1)
    requires Frame(t1, t2, id, {TapEnable}) && PropValue(t2, id, TapEnable) == Some(0)
    requires Frame(t2, t3, id, {ClickZone}) && PropValue(t3, id, ClickZone) == Some(1)
    ensures FixesHold(t3, id)
  {
    assert DeviceEnabled != TapEnable && DeviceEnabled != ClickZone && TapEnable != ClickZone;
  }

  /** The auto-switch table of `deactivate_touchpad_on_mouse`: with the stylus
      and the touchpad both on, turn the touchpad off; with both off, turn it
      on; otherwise leave it. `None` is "no command", `Some(b)` is
      `set_device_active(touch, b)`. */
  function SwitchDecision(mouseOn: bool, touchOn: bool): (w: Option<bool>)
    ensures w.Some? <==> mouseOn == touchOn
    ensures w.Some? ==> w.value != mouseOn
    ensures mouseOn != (if w.Some? then w.value else touchOn)
  {
    if mouseOn && touchOn then Some(false)
    else if !(mouseOn || touchOn) then Some(true)
    else None
  }

  // ---------------------------------------------------------------- the devices

  /** The devices as the program sees them through `xinput`: the device table
      the tool reads and writes, the device listing `xinput` prints, and the
      commands issued so far. */
  class Devices {
    /** The device table, with the effect of every issued command. */
    var table: Table
    /** What plain `xinput` prints: the device listing with the ids. */
    const listing: string
    /** The `set-prop`, `enable` and `disable` commands issued, in order. */
    var issued: seq<Write>

    constructor(t: Table, listing: string)
      ensures table == t && this.listing == listing && issued == []
    {
      table := t;
      this.listing := listing;
      issued := [];
    }

    /** `subprocess.call` of one writing command: the tool carries it out. */
    method Issue(w: Write)
      modifies this
      ensures issued == old(issued) + [w]
      ensures table == Apply(old(table), w)
    {
      table := Apply(table, w);
      issued := issued + [w];
    }

    /** `set_device_active(deviceNum, onoff)`: `xinput enable` or `xinput
        disable`, unconditionally. */
    method SetDeviceActive(deviceNum: int, onoff: bool)
      modifies this
      ensures issued == old(issued) + [Toggle(deviceNum, onoff)]
      ensures Appends(issued, old(issued), deviceNum)
      ensures Frame(old(table), table, deviceNum, {DeviceEnabled})
      ensures PropValue(old(table), deviceNum, DeviceEnabled).Some? ==>
        PropValue(table, deviceNum, DeviceEnabled) == Some(AsInt(onoff))
    {
      Issue(Toggle(deviceNum, onoff));
    }

    /** `set_touchpad_int_property(deviceNum, propName, val)`: read the
        property, and write it only when it differs from `val`. */
    method SetTouchpadIntProperty(deviceNum: int, propName: string, val: int) returns (r: Outcome)
      modifies this
      ensures Appends(issued, old(issued), deviceNum) && |issued| <= |old(issued)| + 1
      ensures Frame(old(table), table, deviceNum, {propName})
      ensures GetIntProperty(old(table), deviceNum, propName).Err? ==>
        r == Fail(GetIntProperty(old(table), deviceNum, propName).error) &&
        issued == old(issued) && table == old(table)
      ensures GetIntProperty(old(table), deviceNum, propName) == Ok(val) ==>
        r == Pass && issued == old(issued) && table == old(table)
      ensures GetIntProperty(old(table), deviceNum, propName).Ok? &&
              GetIntProperty(old(table), deviceNum, propName).value != val ==>
        r == Pass && issued == old(issued) + [SetIntProp(deviceNum, propName, val)]
      ensures |issued| == |old(issued)| + 1 && PropValue(old(table), deviceNum, propName).Some? ==>
        PropValue(table, deviceNum, propName) == Some(val)
      ensures Unambiguous(old(table), deviceNum, propName) ==>
        r == Pass && PropValue(table, deviceNum, propName) == Some(val)
    {
      Unchanged(table, issued, deviceNum, {propName});
      var current := GetIntProperty(table, deviceNum, propName);
      if current.Err? {
        r := Fail(current.error);
      } else if current.value != val {
        var w := SetIntProp(deviceNum, propName, val);
        assert w.Property() == propName && w.Written() == val;
        Issue(w);
        r := Pass;
      } else {
        r := Pass;
      }
    }

    /** `check_set_device_active(deviceNum, onoff)`: read "Device Enabled", and
        enable or disable only when it differs from `onoff` taken as 1 or 0. */
    method CheckSetDeviceActive(deviceNum: int, onoff: bool) returns (r: Outcome)
      modifies this
      ensures Appends(issued, old(issued), deviceNum) && |issued| <= |old(issued)| + 1
      ensures Frame(old(table), table, deviceNum, {DeviceEnabled})
      ensures GetDeviceActive(old(table), deviceNum).Err? ==>
        r == Fail(GetDeviceActive(old(table), deviceNum).error) &&
        issued == old(issued) && table == old(table)
      ensures GetDeviceActive(old(table), deviceNum) == Ok(AsInt(onoff)) ==>
        r == Pass && issued == old(issued) && table == old(table)
      ensures GetDeviceActive(old(table), deviceNum).Ok? &&
              GetDeviceActive(old(table), deviceNum).value != AsInt(onoff) ==>
        r == Pass && issued == old(issued) + [Toggle(deviceNum, onoff)]
      ensures |issued| == |old(issued)| + 1 && PropValue(old(table), deviceNum, DeviceEnabled).Some? ==>
        PropValue(table, deviceNum, DeviceEnabled) == Some(AsInt(onoff))
      ensures Unambiguous(old(table), deviceNum, DeviceEnabled) ==>
        r == Pass && PropValue(table, deviceNum, DeviceEnabled) == Some(AsInt(onoff))
    {
      Unchanged(table, issued, deviceNum, {DeviceEnabled});
      var currState := GetDeviceActive(table, deviceNum);
      if currState.Err? {
        return Fail(currState.error);
      }
      if currState.value != AsInt(onoff) {
        SetDeviceActive(deviceNum, onoff);
      }
      return Pass;
    }

    /** `touchpad_fixes(deviceNum)`: make sure the touchpad is enabled, turn
        tapping off and the right-click zone on, each only if needed. */
    method TouchpadFixes(deviceNum: int) returns (r: Outcome)
      modifies this
      ensures Appends(issued, old(issued), deviceNum) && |issued| <= |old(issued)| + 3
      ensures Frame(old(table), table, deviceNum, WrittenProps(Fixes))
      ensures GetDeviceActive(old(table), deviceNum).Err? ==>
        r == Fail(GetDeviceActive(old(table), deviceNum).error) && issued == old(issued) && table == old(table)
      ensures FixReady(old(table), deviceNum) ==> r == Pass && FixesHold(table, deviceNum)
      ensures FixReady(old(table), deviceNum) && FixesHold(old(table), deviceNum) ==>
        issued == old(issued) && table == old(table)
    {
      ghost var t0, i0 := table, issued;
      r := CheckSetDeviceActive(deviceNum, true);
      ghost var t1, i1 := table, issued;
      if r.Pass? {
        r := SetTouchpadIntProperty(deviceNum, TapEnable, 0);
      }
      ghost var t2, i2 := table, issued;
      if r.Pass? {
        r := SetTouchpadIntProperty(deviceNum, ClickZone, 1);
      }
      FixesSteps(t0, t1, t2, table, i0, i1, i2, issued, deviceNum);
      if FixReady(t0, deviceNum) {
        FixReadySteps(t0, t1, t2, deviceNum);
        FixesOutcome(t1, t2, table, deviceNum);
      }
    }

    /** `deactivate_touchpad_on_mouse(touchDevice)`: look the stylus up; when
        the lookup raises ValueError, enable the touchpad if it is off;
        otherwise apply `SwitchDecision` to the two "Device Enabled" flags.
        Only the touchpad's "Device Enabled" is ever written. */
    method DeactivateTouchpadOnMouse(touchDevice: int) returns (r: Outcome)
      modifies this
      ensures Appends(issued, old(issued), touchDevice) && |issued| <= |old(issued)| + 1
      ensures Frame(old(table), table, touchDevice, {DeviceEnabled})
      ensures GetDeviceNum(listing, TabletStylusFilter).Err? ==>
        var e := GetDeviceNum(listing, TabletStylusFilter).error;
        var touch := GetDeviceActive(old(table), touchDevice);
        && (!e.ValueError? ==> r == Fail(e) && issued == old(issued) && table == old(table))
        && (e.ValueError? && touch.Err? ==> r == Fail(touch.error) && issued == old(issued) && table == old(table))
        && (e.ValueError? && touch.Ok? ==>
              r == Pass && (touch.value == 0 ==> issued == old(issued) + [Enable(touchDevice)]) &&
              (touch.value != 0 ==> issued == old(issued) && table == old(table)))
      ensures GetDeviceNum(listing, TabletStylusFilter).Ok? ==>
        var mouse := GetDeviceActive(old(table), GetDeviceNum(listing, TabletStylusFilter).value);
        var touch := GetDeviceActive(old(table), touchDevice);
        && (mouse.Err? ==> r == Fail(mouse.error) && issued == old(issued) && table == old(table))
        && (mouse.Ok? && touch.Err? ==> r == Fail(touch.error) && issued == old(issued) && table == old(table))
        && (mouse.Ok? && touch.Ok? ==>
              var w := SwitchDecision(mouse.value != 0, touch.value != 0);
              r == Pass && (w.Some? ==> issued == old(issued) + [Toggle(touchDevice, w.value)]) &&
              (w.None? ==> issued == old(issued) && table == old(table)))
      ensures |issued| == |old(issued)| + 1 && PropValue(old(table), touchDevice, DeviceEnabled).Some? ==>
        PropValue(table, touchDevice, DeviceEnabled) == Some(issued[|issued| - 1].Written())
      ensures Ready(AutoSwitch, listing, old(table), touchDevice) ==>
        r == Pass && Settled(AutoSwitch, listing, table, touchDevice)
      ensures Ready(AutoSwitch, listing, old(table), touchDevice) &&
              Settled(AutoSwitch, listing, old(table), touchDevice) ==>
        issued == old(issued) && table == old(table)
    {
      Unchanged(table, issued, touchDevice, {DeviceEnabled});
      var tablet := GetDeviceNum(listing, TabletStylusFilter);
      var w: Option<bool> := None;
      r := Pass;
      if tablet.Err? {
        if !tablet.error.ValueError? {
          r := Fail(tablet.error);
        } else {
          var touchOn := GetDeviceActive(table, touchDevice);
          if touchOn.Err? {
            r := Fail(touchOn.error);
          } else if touchOn.value == 0 {
            w := Some(true);
          }
        }
      } else {
        var mouseOn := GetDeviceActive(table, tablet.value);
        if mouseOn.Err? {
          r := Fail(mouseOn.error);
        } else {
          var touchOn := GetDeviceActive(table, touchDevice);
          if touchOn.Err? {
            r := Fail(touchOn.error);
          } else {
            w := SwitchDecision(mouseOn.value != 0, touchOn.value != 0);
          }
        }
      }
      if w.Some? {
        ghost var t0 := table;
        SetDeviceActive(touchDevice, w.value);
        if tablet.Ok? && tablet.value != touchDevice {
          FrameOther(t0, table, touchDevice, tablet.value, DeviceEnabled);
        }
      }
    }

    /** One run of the action `main` chose, on the touchpad `touch`. */
    method RunAction(action: Action, touch: int) returns (r: Outcome)
      modifies this
      ensures Appends(issued, old(issued), touch) && |issued| <= |old(issued)| + MaxWrites(action)
      ensures Frame(old(table), table, touch, WrittenProps(action))
      ensures Ready(action, listing, old(table), touch) ==>
        r == Pass && Settled(action, listing, table, touch)
      ensures Ready(action, listing, old(table), touch) && Settled(action, listing, old(table), touch) ==>
        issued == old(issued) && table == old(table)
    {
      match action
      case Fixes =>
        r := TouchpadFixes(touch);
      case SetActive(onoff) =>
        r := CheckSetDeviceActive(touch, onoff);
      case AutoSwitch =>
        r := DeactivateTouchpadOnMouse(touch);
    }

    /** The body of the polling loop: run `action` on `touch` up to `runs`
        times, stopping at the first exception. */
    method Poll(action: Action, touch: int, runs: nat) returns (r: Outcome)
      modifies this
      ensures Appends(issued, old(issued), touch)
      ensures Frame(old(table), table, touch, WrittenProps(action))
      ensures Ready(action, listing, old(table), touch) ==>
        r == Pass && Ready(action, listing, table, touch) &&
        |issued| <= |old(issued)| + MaxWrites(action) &&
        (runs > 0 ==> Settled(action, listing, table, touch))
      ensures Ready(action, listing, old(table), touch) && Settled(action, listing, old(table), touch) ==>
        issued == old(issued) && table == old(table)
    {
      ghost var t0, i0 := table, issued;
      ghost var ready := Ready(action, listing, t0, touch);
      ghost var settled := Settled(action, listing, t0, touch);
      r := Pass;
      var i := 0;
      while i < runs && r == Pass
        invariant 0 <= i <= runs
        invariant Appends(issued, i0, touch)
        invariant Frame(t0, table, touch, WrittenProps(action))
        invariant ready ==> r == Pass && Ready(action, listing, table, touch)
        invariant ready && i == 0 ==> issued == i0
        invariant ready && i > 0 ==> Settled(action, listing, table, touch) && |issued| <= |i0| + MaxWrites(action)
        invariant ready && settled ==> issued == i0 && table == t0
      {
        ghost var t1, i1 := table, issued;
        r := RunAction(action, touch);
        AppendsChain(i0, i1, issued, touch);
        FrameChain(t0, t1, table, touch, WrittenProps(action), WrittenProps(action));
        assert WrittenProps(action) + WrittenProps(action) == WrittenProps(action);
        if ready {
          ReadyKept(action, listing, t1, table, touch);
        }
        i := i + 1;
      }
    }

    /** `check_touchpad_at_interval` once the touchpad `touch` is known and
        its state has been read: poll, then enable the touchpad when the user
        interrupts. */
    method PollAndRestore(action: Action, touch: int, interruptAfter: nat) returns (r: Outcome)
      modifies this
      ensures Appends(issued, old(issued), touch)
      ensures Frame(old(table), table, touch, WrittenProps(action))
      ensures r == Pass ==> |issued| > 0 && issued[|issued| - 1] == Enable(touch)
      ensures r == Pass && PropValue(old(table), touch, DeviceEnabled).Some? ==>
        PropValue(table, touch, DeviceEnabled) == Some(1)
      ensures Ready(action, listing, old(table), touch) ==>
        r == Pass && PropValue(table, touch, DeviceEnabled) == Some(1) &&
        |issued| <= |old(issued)| + MaxWrites(action) + 1
    {
      ghost var t0, i0 := table, issued;
      r := Poll(action, touch, interruptAfter);
      if r == Pass {
        ghost var t1, i1 := table, issued;
        if Ready(action, listing, t0, touch) {
          ghost var k := UnambiguousValue(t1, touch, DeviceEnabled);
        }
        SetDeviceActive(touch, true);
        AppendsChain(i0, i1, issued, touch);
        FrameChain(t0, t1, table, touch, WrittenProps(action), {DeviceEnabled});
        assert WrittenProps(action) + {DeviceEnabled} == WrittenProps(action);
      }
    }

    /** `check_touchpad_at_interval` once the touchpad `touch` is found: read
        whether it is enabled, then poll and restore. */
    method WatchTouchpad(action: Action, touch: int, interruptAfter: nat) returns (r: Outcome)
      modifies this
      ensures Appends(issued, old(issued), touch)
      ensures Frame(old(table), table, touch, WrittenProps(action))
      ensures GetDeviceActive(old(table), touch).Err? ==>
        r == Fail(GetDeviceActive(old(table), touch).error) && issued == old(issued) && table == old(table)
      ensures r == Pass ==> |issued| > 0 && issued[|issued| - 1] == Enable(touch)
      ensures r == Pass && PropValue(old(table), touch, DeviceEnabled).Some? ==>
        PropValue(table, touch, DeviceEnabled) == Some(1)
      ensures Ready(action, listing, old(table), touch) ==>
        r == Pass && PropValue(table, touch, DeviceEnabled) == Some(1) &&
        |issued| <= |old(issued)| + MaxWrites(action) + 1
    {
      var active := GetDeviceActive(table, touch);
      if active.Err? {
        Unchanged(table, issued, touch, WrittenProps(action));
        r := Fail(active.error);
      } else {
        r := PollAndRestore(action, touch, interruptAfter);
      }
    }

    /** `check_touchpad_at_interval(interval, action)`: find the touchpad, read
        whether it is enabled, run the action once per interval until the user
        interrupts (here: after `interruptAfter` runs), then enable the
        touchpad. An exception from a run ends the loop without that final
        enable. */
    method CheckTouchpadAtInterval(action: Action, interruptAfter: nat) returns (r: Outcome)
      modifies this
      ensures GetDeviceNum(listing, TouchpadFilter).Err? ==>
        r == Fail(GetDeviceNum(listing, TouchpadFilter).error) && issued == old(issued) && table == old(table)
      ensures GetDeviceNum(listing, TouchpadFilter).Ok? ==>
        var touch := GetDeviceNum(listing, TouchpadFilter).value;
        && Appends(issued, old(issued), touch)
        && Frame(old(table), table, touch, WrittenProps(action))
        && (GetDeviceActive(old(table), touch).Err? ==>
              r == Fail(GetDeviceActive(old(table), touch).error) && issued == old(issued) && table == old(table))
        && (r == Pass ==> |issued| > 0 && issued[|issued| - 1] == Enable(touch))
        && (r == Pass && PropValue(old(table), touch, DeviceEnabled).Some? ==>
              PropValue(table, touch, DeviceEnabled) == Some(1))
        && (Ready(action, listing, old(table), touch) ==>
              r == Pass && PropValue(table, touch, DeviceEnabled) == Some(1) &&
              |issued| <= |old(issued)| + MaxWrites(action) + 1)
    {
      var touchNum := GetDeviceNum(listing, TouchpadFilter);
      if touchNum.Err? {
        r := Fail(touchNum.error);
      } else {
        r := WatchTouchpad(action, touchNum.value, interruptAfter);
      }
    }

    /** `main` after argument parsing: the flag check, then the polling loop
        with the chosen action. */
    method Run(activate: bool, deactivate: bool, deactivateMouse: bool, fixes: bool, interruptAfter: nat)
      returns (r: Outcome)
      modifies this
      ensures SelectAction(activate, deactivate, deactivateMouse, fixes).Err? ==>
        r == Fail(ValueError("cyapa.py run with mutually inconsistent arguments")) &&
        issued == old(issued) && table == old(table)
      ensures SelectAction(activate, deactivate, deactivateMouse, fixes).Ok? &&
              GetDeviceNum(listing, TouchpadFilter).Err? ==>
        r == Fail(GetDeviceNum(listing, TouchpadFilter).error) && issued == old(issued) && table == old(table)
      ensures SelectAction(activate, deactivate, deactivateMouse, fixes).Ok? &&
              GetDeviceNum(listing, TouchpadFilter).Ok? ==>
        var action := SelectAction(activate, deactivate, deactivateMouse, fixes).value;
        var touch := GetDeviceNum(listing, TouchpadFilter).value;
        && Appends(issued, old(issued), touch)
        && Frame(old(table), table, touch, WrittenProps(action))
        && (r == Pass && PropValue(old(table), touch, DeviceEnabled).Some? ==>
              PropValue(table, touch, DeviceEnabled) == Some(1))
        && (Ready(action, listing, old(table), touch) ==>
              r == Pass && PropValue(table, touch, DeviceEnabled) == Some(1))
    {
      var action := SelectAction(activate, deactivate, deactivateMouse, fixes);
      if action.Err? {
        return Fail(action.error);
      }
      r := CheckTouchpadAtInterval(action.value, interruptAfter);
    }
  }
}

=== FILE: cyapa_parse.dfy ===
/** The text-processing half of cyapa.py: picking the one interesting line out
    of the tool's output and reading a device id, a property value or the
    "Device Enabled" flag from it. Each function takes the output text as a
    value; the lemmas at the end say what they read from the listing the tool
    prints for a table of devices. */
module CyapaParse {
  import opened Outcomes
  import opened PyText
  import opened Select
  import opened Xinput

  /** `output.split('\n')`. */
  function Lines(output: string): seq<string> {
    Split(output, '\n')
  }

  /** Python's `int(s)`: the value of a decimal literal, ValueError for
      anything else. */
  function Int(s: string): (r: Result<int>)
    ensures forall v :: Literal(s, v) ==> r == Ok(v)
    ensures r.Ok? ==> Literal(s, r.value)
    ensures r.Err? ==> r.error.ValueError?
  {
    assert forall v :: ParseInt(s) == Some(v) <==> Literal(s, v) by {
      forall v ensures ParseInt(s) == Some(v) <==> Literal(s, v) { ParseIntLiteral(s, v); }
    }
    match ParseInt(s)
    case Some(v) => Ok(v)
    case None => Err(ValueError("invalid literal for int() with base 10: '" + s + "'"))
  }

  // ---------------------------------------------------------------- device discovery

  /** What the three line filters look for. */
  const TouchpadKeys: seq<string> := ["cyapa"]
  const StylusKeys: seq<string> := ["Wacom", "stylus"]
  const EnabledKeys: seq<string> := [DeviceEnabled]

  /** `touchpad_filter_func`: the one line of the device listing that mentions
      "cyapa". */
  function TouchpadFilter(output: string): (r: Result<string>)
    ensures r.Ok? ==> exists i :: OnlyWanted(Lines(output), TouchpadKeys, i)
    ensures forall i :: OnlyWanted(Lines(output), TouchpadKeys, i) ==> r == Ok(Lines(output)[i])
    ensures NoneWanted(Lines(output), TouchpadKeys) <==> r == Err(ValueError("No Cypress touchpad found"))
    ensures TwoWanted(Lines(output), TouchpadKeys) <==> r == Err(ValueError("Multiple Cypress touchpads found"))
  {
    SelectUnique(Lines(output), TouchpadKeys,
      ValueError("No Cypress touchpad found"), ValueError("Multiple Cypress touchpads found"))
  }

  /** `tablet_stylus_filter_func`: the one line of the device listing that
      mentions both "Wacom" and "stylus". */
  function TabletStylusFilter(output: string): (r: Result<string>)
    ensures r.Ok? ==> exists i :: OnlyWanted(Lines(output), StylusKeys, i)
    ensures forall i :: OnlyWanted(Lines(output), StylusKeys, i) ==> r == Ok(Lines(output)[i])
    ensures NoneWanted(Lines(output), StylusKeys) <==> r == Err(ValueError("no Wacom stylus found"))
    ensures TwoWanted(Lines(output), StylusKeys) <==> r == Err(ValueError("multiple Wacom styli found"))
  {
    SelectUnique(Lines(output), StylusKeys,
      ValueError("no Wacom stylus found"), ValueError("multiple Wacom styli found"))
  }

  /** The regular expression `id=(\d+)\t` matches `s` from index `i`, and its
      digit group ends at the tab at index `j`. */
  predicate IdMatch(s: string, i: int, j: int) {
    0 <= i && i + 3 < j < |s| && s[i..i + 3] == "id=" && AllDigits(s[i + 3..j]) && s[j] == '\t'
  }

  /** The match `re.search` reports: no match starts further left. */
  ghost predicate LeftmostMatch(s: string, i: int, j: int) {
    IdMatch(s, i, j) && forall i', j' :: IdMatch(s, i', j') ==> i <= i'
  }

  /** No match of `id=(\d+)\t` lies within `s`. */
  ghost predicate NoIdIn(s: string) {
    forall i, j :: !IdMatch(s, i, j)
  }

  /** The end of the run of digits that starts at `k`. */
  function DigitRunEnd(s: string, k: nat): (e: nat)
    requires k <= |s|
    ensures k <= e <= |s|
    ensures forall m :: k <= m < e ==> IsDigit(s[m])
    ensures e < |s| ==> !IsDigit(s[e])
    decreases |s| - k
  {
    if k < |s| && IsDigit(s[k]) then DigitRunEnd(s, k + 1) else k
  }

  /** A tab is not a digit, so a match ends exactly where the digit run does. */
  lemma MatchEnd(s: string, i: int, j: int)
    requires IdMatch(s, i, j)
    ensures j == DigitRunEnd(s, i + 3)
  {
  }

  /** `re.search` from index `from`: the leftmost match, with its tab. */
  function SearchId(s: string, from: nat): (r: Option<(nat, nat)>)
    requires from <= |s|
    ensures r.Some? ==> from <= r.value.0 && IdMatch(s, r.value.0, r.value.1)
    ensures r.Some? ==> forall i, j :: from <= i < r.value.0 ==> !IdMatch(s, i, j)
    ensures r.None? ==> forall i, j :: from <= i ==> !IdMatch(s, i, j)
    decreases |s| - from
  {
    if from + 4 >= |s| then None
    else
      var e := DigitRunEnd(s, from + 3);
      if s[from..from + 3] == "id=" && from + 3 < e < |s| && s[e] == '\t' then
        assert AllDigits(s[from + 3..e]);
        Some((from, e))
      else
        assert forall j :: !IdMatch(s, from, j) by {
          forall j | IdMatch(s, from, j) ensures false { MatchEnd(s, from, j); }
        }
        SearchId(s, from + 1)
  }

  /** The id `get_device_num` reads from the selected line:
      `line[m.start()+3 : m.end()-1]` of the first match, converted by `int()`.
      Without a match `m` is None and `m.start()` raises AttributeError. */
  function ParseDeviceId(line: string): (r: Result<int>)
    ensures r.Err? <==> NoIdIn(line)
    ensures r.Err? ==> r.error == AttributeError("'NoneType' object has no attribute 'start'")
    ensures r.Ok? ==> exists i, j :: LeftmostMatch(line, i, j) && r.value == DigitsValue(line[i + 3..j])
  {
    var m := SearchId(line, 0);
    if m.None? then Err(AttributeError("'NoneType' object has no attribute 'start'"))
    else
      var i, j := m.value.0, m.value.1;
      var idString := line[i + 3..j];
      ParseIntDigits(idString);
      assert LeftmostMatch(line, i, j);
      Int(idString)
  }

  /** `get_device_num(filter_func)` applied to the listing `xinput` printed:
      the filter's error; AttributeError when the chosen line holds no
      `id=<digits><tab>`; otherwise the digits of the leftmost such match. */
  function GetDeviceNum(output: string, filter: string -> Result<string>): (r: Result<int>)
    ensures filter(output).Err? ==> r == Err(filter(output).error)
    ensures filter(output).Ok? && NoIdIn(filter(output).value) ==>
      r == Err(AttributeError("'NoneType' object has no attribute 'start'"))
    ensures r.Ok? ==> filter(output).Ok?
    ensures r.Ok? ==>
      exists i, j :: LeftmostMatch(filter(output).value, i, j) && r.value == DigitsValue(filter(output).value[i + 3..j])
  {
    match filter(output)
    case Err(e) => Err(e)
    case Ok(line) => ParseDeviceId(line)
  }

  /** A match that would start inside `pre` cannot use the "id=" that follows
      it. */
  lemma NoMatchBefore(pre: string, rest: string, i: int, j: int)
    requires NoIdIn(pre) && |rest| >= 3 && rest[..3] == "id="
    requires i < |pre|
    ensures !IdMatch(pre + rest, i, j)
  {
    var s := pre + rest;
    var p := |pre|;
    assert s[p] == 'i';
    if 0 <= i && i + 3 < j < |s| {
      if j < p {
        assert s[i..i + 3] == pre[i..i + 3];
        assert s[i + 3..j] == pre[i + 3..j];
        assert !IdMatch(pre, i, j);
      } else if j == p {
        assert s[j] != '\t';
      } else if i + 3 <= p {
        assert s[i + 3..j][p - i - 3] == 'i';
      } else {
        assert s[i..i + 3][p - i] == 'i';
      }
    }
  }

  /** Two leftmost matches are the same match. */
  lemma LeftmostUnique(s: string, i: int, j: int, i': int, j': int)
    requires LeftmostMatch(s, i, j) && LeftmostMatch(s, i', j')
    ensures i == i' && j == j'
  {
    MatchEnd(s, i, j);
    MatchEnd(s, i', j');
  }

  /** A line whose first match of `id=(\d+)\t` is at `p`, with the digits of
      `n` up to the tab at `e`, spells the id `n`. */
  lemma LineIdAt(s: string, p: nat, e: nat, n: nat)
    requires LeftmostMatch(s, p, e) && s[p + 3..e] == NatToString(n)
    ensures ParseDeviceId(s) == Ok(n)
  {
    var r := ParseDeviceId(s);
    var i, j :| LeftmostMatch(s, i, j) && r.value == DigitsValue(s[i + 3..j]);
    LeftmostUnique(s, i, j, p, e);
  }

  /** A listing line `pre + "id=" + n + "\t" + post` whose text before the id
      field holds no match of its own spells the id `n`. */
  lemma ListingLineId(pre: string, n: nat, post: string)
    requires NoIdIn(pre)
    ensures ParseDeviceId(pre + "id=" + NatToString(n) + "\t" + post) == Ok(n)
  {
    var ds := NatToString(n);
    var rest := "id=" + ds + "\t" + post;
    var s := pre + rest;
    assert s == pre + "id=" + ds + "\t" + post;
    var p := |pre|;
    var e := p + 3 + |ds|;
    assert s[p..p + 3] == "id=";
    assert s[p + 3..e] == ds;
    assert s[e] == '\t';
    assert IdMatch(s, p, e);
    forall i, j | IdMatch(s, i, j) ensures p <= i {
      if i < p {
        NoMatchBefore(pre, rest, i, j);
      }
    }
    LineIdAt(s, p, e, n);
  }

  /** Discovery end to end: when exactly one line of the listing mentions
      "cyapa" and it carries `id=<n><tab>`, the touchpad id is `n`. */
  lemma TouchpadIdFromListing(output: string, i: int, pre: string, n: nat, post: string)
    requires OnlyWanted(Lines(output), TouchpadKeys, i)
    requires Lines(output)[i] == pre + "id=" + NatToString(n) + "\t" + post
    requires NoIdIn(pre)
    ensures GetDeviceNum(output, TouchpadFilter) == Ok(n)
  {
    ListingLineId(pre, n, post);
  }

  // ---------------------------------------------------------------- property access

  /** `s[a+1..b]` is the text between the first colon of `s` (at `a`) and the
      next colon or the end (at `b`). */
  predicate ColonField(s: string, a: int, b: int) {
    0 <= a < b <= |s| && s[a] == ':' && ':' !in s[..a] && ':' !in s[a + 1..b] &&
    (b == |s| || s[b] == ':')
  }

  /** Split at its first colon `a`, a line's second piece is its colon field. */
  lemma ColonSplit(line: string, a: nat)
    requires a < |line| && line[a] == ':' && ':' !in line[..a]
    ensures |Split(line, ':')| >= 2
    ensures exists b :: ColonField(line, a, b) && Split(line, ':')[1] == line[a + 1..b]
  {
    SplitHead(line, ':', a);
    var rest := line[a + 1..];
    var b := FirstIndex(rest, ':');
    SplitHead(rest, ':', b);
    assert rest[..b] == line[a + 1..a + 1 + b];
    assert ColonField(line, a, a + 1 + b);
  }

  /** `line.split(':')[1]` is the field after the first colon; with no colon
      the list has one element and the index is out of range. */
  lemma SecondField(line: string)
    ensures ':' !in line ==> |Split(line, ':')| == 1
    ensures ':' in line ==> |Split(line, ':')| >= 2
    ensures ':' in line ==> exists a, b :: ColonField(line, a, b) && Split(line, ':')[1] == line[a + 1..b]
  {
    var a := FirstIndex(line, ':');
    if a < |line| {
      ColonSplit(line, a);
    } else {
      SplitHead(line, ':', a);
      assert line[..a] == line;
    }
  }

  /** `line.split(':')[1].strip()`: the text between the first colon and the
      next, whitespace stripped; IndexError when the line has no colon. */
  function SecondFieldStripped(line: string): (r: Result<string>)
    ensures ':' !in line <==> r == Err(IndexError("list index out of range"))
    ensures ':' in line ==> r.Ok? && exists a, b :: ColonField(line, a, b) && r.value == Strip(line[a + 1..b])
  {
    SecondField(line);
    var parts := Split(line, ':');
    if |parts| < 2 then Err(IndexError("list index out of range"))
    else Ok(Strip(parts[1]))
  }

  /** `get_device_prop_string` on the text of `xinput list-props`: the one line
      mentioning `propName`, read by `SecondFieldStripped`. */
  function DevicePropString(output: string, propName: string): (r: Result<string>)
    ensures NoneWanted(Lines(output), [propName]) ==> r == Err(ValueError("No " + propName + " property found"))
    ensures TwoWanted(Lines(output), [propName]) ==> r == Err(ValueError("Multiple " + propName + " properties found"))
    ensures forall i :: OnlyWanted(Lines(output), [propName], i) ==> r == SecondFieldStripped(Lines(output)[i])
    ensures r.Err? && r.error.ValueError? ==> NoneWanted(Lines(output), [propName]) || TwoWanted(Lines(output), [propName])
  {
    match SelectUnique(Lines(output), [propName],
      ValueError("No " + propName + " property found"),
      ValueError("Multiple " + propName + " properties found"))
    case Err(e) => Err(e)
    case Ok(line) => SecondFieldStripped(line)
  }

  /** `s[j..]` is what follows the last tab of `s` (all of `s` without a tab). */
  predicate AfterLastTab(s: string, j: int) {
    0 <= j <= |s| && (j == 0 || s[j - 1] == '\t') && '\t' !in s[j..]
  }

  /** One past the last tab of `s`, or 0. */
  function LastTabEnd(s: string): (j: nat)
    ensures AfterLastTab(s, j)
  {
    if |s| == 0 then 0
    else if s[|s| - 1] == '\t' then |s|
    else
      var j := LastTabEnd(s[..|s| - 1]);
      assert s[j..] == s[..|s| - 1][j..] + [s[|s| - 1]];
      j
  }

  /** `int(line.split('\t')[-1])`: the text after the last tab, read by
      `int()`. */
  function LastFieldInt(line: string): (r: Result<int>)
    ensures exists j :: AfterLastTab(line, j) && r == Int(line[j..])
  {
    var j := LastTabEnd(line);
    SplitLast(line, '\t', j);
    var fields := Split(line, '\t');
    assert AfterLastTab(line, j) && fields[|fields| - 1] == line[j..];
    Int(fields[|fields| - 1])
  }

  /** `get_device_active` on the text of `xinput list-props`: the one line
      mentioning "Device Enabled", read by `LastFieldInt`. Zero or several
      such lines raise "Bad output from xinput". */
  function DeviceActiveValue(output: string): (r: Result<int>)
    ensures (forall i :: !OnlyWanted(Lines(output), EnabledKeys, i)) ==>
      r == Err(ValueError("Bad output from xinput"))
    ensures forall i :: OnlyWanted(Lines(output), EnabledKeys, i) ==> r == LastFieldInt(Lines(output)[i])
  {
    match SelectUnique(Lines(output), EnabledKeys,
      ValueError("Bad output from xinput"), ValueError("Bad output from xinput"))
    case Err(e) => Err(e)
    case Ok(line) => LastFieldInt(line)
  }

  // ---------------------------------------------------------------- reading the listing of a table

  /** Neither numeral of a property line holds a letter or a space. */
  lemma NumeralsPlain(q: Prop, c: char)
    requires IsLetter(c) || c == ' '
    ensures c !in NatToString(q.atom) + "):\t" + IntToString(q.value)
  {
    NumeralAvoids(q.atom, c);
    NumeralAvoids(q.value, c);
  }

  /** A plain name is found on a property line exactly when the property's own
      name mentions it. */
  lemma PropLineMentions(q: Prop, p: string)
    requires PlainName(p)
    ensures Contains(PropLine(q), p) <==> Contains(q.name, p)
  {
    var atom := NatToString(q.atom);
    var val := IntToString(q.value);
    var line := PropLine(q);
    if Contains(q.name, p) {
      assert line == "\t" + q.name + (" (" + atom + "):\t" + val);
      ContainsInFrame("\t", q.name, " (" + atom + "):\t" + val, p);
    }
    if Contains(line, p) {
      var x := "\t" + q.name + " ";
      var y := atom + "):\t" + val;
      assert line == x + ['('] + y;
      PlainNameAvoids(p, '(');
      PlainNameAvoids(p, '\t');
      NumeralsPlain(q, p[0]);
      AbsentFirstChar(y, p);
      ContainsAcross(x, '(', y, p);
      assert x == [] + ['\t'] + (q.name + [' ']);
      ContainsAcross([], '\t', q.name + [' '], p);
      ContainsDropLast(q.name, ' ', p);
    }
  }

  /** `split(':')[1]` of a property line is a tab followed by the value. */
  lemma PropLineSecondField(q: Prop)
    requires ':' !in q.name
    ensures |Split(PropLine(q), ':')| >= 2
    ensures Split(PropLine(q), ':')[1] == "\t" + IntToString(q.value)
  {
    var atom := NatToString(q.atom);
    var val := IntToString(q.value);
    var pre := "\t" + q.name + " (" + atom + ")";
    var rest := "\t" + val;
    var line := PropLine(q);
    assert line == pre + [':'] + rest;
    NumeralAvoids(q.atom, ':');
    NumeralAvoids(q.value, ':');
    assert line[..|pre|] == pre;
    assert line[|pre| + 1..] == rest;
    SplitHead(line, ':', |pre|);
    SplitHead(rest, ':', |rest|);
  }

  /** `split('\t')[-1]` of a property line is the value. */
  lemma PropLineLastField(q: Prop)
    ensures AfterLastTab(PropLine(q), |PropLine(q)| - |IntToString(q.value)|)
    ensures PropLine(q)[|PropLine(q)| - |IntToString(q.value)|..] == IntToString(q.value)
  {
    var atom := NatToString(q.atom);
    var val := IntToString(q.value);
    var pre := "\t" + q.name + " (" + atom + "):";
    var line := PropLine(q);
    assert line == pre + ['\t'] + val;
    NumeralAvoids(q.value, '\t');
    assert line[|pre| + 1..] == val;
  }

  /** The text after the last tab is well defined. */
  lemma AfterLastTabUnique(s: string, j: int, j': int)
    requires AfterLastTab(s, j) && AfterLastTab(s, j')
    ensures j == j'
  {
  }

  /** A property line is one line when the property's name is. */
  lemma PropLineOneLine(q: Prop)
    requires '\n' !in q.name
    ensures '\n' !in PropLine(q)
  {
    NumeralAvoids(q.atom, '\n');
    NumeralAvoids(q.value, '\n');
  }

  /** Splitting the printed listing at newlines gives back its lines. */
  lemma ListingSplits(d: Device)
    requires OneLineNames(d.name, Names(d.props))
    ensures Lines(Join(OutputLines(d), '\n')) == OutputLines(d)
  {
    var lines := OutputLines(d);
    forall k | 0 <= k < |lines| ensures '\n' !in lines[k] {
      if 1 <= k < |lines| - 1 {
        assert lines[k] == PropLine(d.props[k - 1]);
        assert Names(d.props)[k - 1] == d.props[k - 1].name;
        PropLineOneLine(d.props[k - 1]);
      }
    }
    SplitJoin(lines, '\n');
  }

  /** A line of the listing other than the line of property `k` does not
      mention `p`. */
  lemma OtherLineSilent(d: Device, p: string, k: int, j: int)
    requires PlainName(p) && OnlyMention(d.name, Names(d.props), p, k)
    requires 0 <= j < |OutputLines(d)| && j != k + 1
    ensures !Contains(OutputLines(d)[j], p)
  {
    var lines := OutputLines(d);
    if 1 <= j < |lines| - 1 {
      assert lines[j] == PropLine(d.props[j - 1]);
      assert Names(d.props)[j - 1] == d.props[j - 1].name;
      PropLineMentions(d.props[j - 1], p);
    } else if j == |lines| - 1 {
      assert lines[j] == "";
    }
  }

  /** When `p` names property `k` unambiguously, that property's line is the
      only line of the listing that mentions `p`. */
  lemma OnlyLine(d: Device, p: string, k: int)
    requires PlainName(p) && OnlyMention(d.name, Names(d.props), p, k)
    ensures OnlyWanted(OutputLines(d), [p], k + 1)
    ensures OutputLines(d)[k + 1] == PropLine(d.props[k])
  {
    var lines := OutputLines(d);
    assert lines[k + 1] == PropLine(d.props[k]);
    PropLineMentions(d.props[k], p);
    ContainsSelf(p);
    assert Wanted(lines[k + 1], [p]);
    forall j | 0 <= j < |lines| && j != k + 1 ensures !Wanted(lines[j], [p]) {
      OtherLineSilent(d, p, k, j);
      assert [p][0] == p;
    }
  }

  /** The line of the listing that an unambiguous property name selects. */
  lemma ListingLine(t: Table, id: int, p: string) returns (k: nat)
    requires Unambiguous(t, id, p)
    ensures k < |t[id].props| && t[id].props[k].name == p
    ensures PropValue(t, id, p) == Some(t[id].props[k].value)
    ensures OnlyWanted(Lines(ListProps(t, id)), [p], k + 1)
    ensures Lines(ListProps(t, id))[k + 1] == PropLine(t[id].props[k])
  {
    k := UnambiguousValue(t, id, p);
    var d := t[id];
    assert Names(d.props)[k] == d.props[k].name;
    ListingSplits(d);
    OnlyLine(d, p, k);
  }

  /** The colon field of a property line, stripped, is the value's numeral. */
  lemma PropLineReadsString(q: Prop)
    requires ':' !in q.name
    ensures SecondFieldStripped(PropLine(q)) == Ok(IntToString(q.value))
  {
    PropLineSecondField(q);
    StripFront("\t", IntToString(q.value));
  }

  /** The last tab field of a property line reads back as the value. */
  lemma PropLineReadsInt(q: Prop)
    ensures LastFieldInt(PropLine(q)) == Ok(q.value)
  {
    var line := PropLine(q);
    PropLineLastField(q);
    var j :| AfterLastTab(line, j) && LastFieldInt(line) == Int(line[j..]);
    AfterLastTabUnique(line, j, |line| - |IntToString(q.value)|);
    ParseIntNumeral(q.value);
  }

  /** `get_device_prop_string` on the listing of an unambiguous property reads
      back the value's numeral. */
  lemma ReadsPropString(t: Table, id: int, p: string)
    requires Unambiguous(t, id, p)
    ensures PropValue(t, id, p).Some?
    ensures DevicePropString(ListProps(t, id), p) == Ok(IntToString(PropValue(t, id, p).value))
  {
    var k := ListingLine(t, id, p);
    var q := t[id].props[k];
    PlainNameAvoids(p, ':');
    PropLineReadsString(q);
  }

  /** `get_device_active` on the listing of a device whose "Device Enabled"
      is unambiguous reads back that property's value. */
  lemma ReadsEnabled(t: Table, id: int)
    requires Unambiguous(t, id, DeviceEnabled)
    ensures PropValue(t, id, DeviceEnabled).Some?
    ensures DeviceActiveValue(ListProps(t, id)) == Ok(PropValue(t, id, DeviceEnabled).value)
  {
    var k := ListingLine(t, id, DeviceEnabled);
    PropLineReadsInt(t[id].props[k]);
  }

  /** The listing of an unknown device is empty, and no non-empty name is
      found in it. */
  lemma UnknownDeviceListing(t: Table, id: int, p: string)
    requires id !in t && |p| > 0
    ensures NoneWanted(Lines(ListProps(t, id)), [p])
  {
    assert Lines(ListProps(t, id)) == [""];
    assert !Contains("", p);
    assert [p][0] == p;
    assert !Wanted("", [p]);
  }

  /** The reads below, summed up per device and name. */
  lemma ReadsOwnLine(t: Table, id: int, p: string)
    ensures Unambiguous(t, id, p) ==>
      PropValue(t, id, p).Some? &&
      DevicePropString(ListProps(t, id), p) == Ok(IntToString(PropValue(t, id, p).value))
    ensures Unambiguous(t, id, p) && p == DeviceEnabled ==>
      PropValue(t, id, p).Some? && DeviceActiveValue(ListProps(t, id)) == Ok(PropValue(t, id, p).value)
    ensures id !in t && |p| > 0 ==> NoneWanted(Lines(ListProps(t, id)), [p])
  {
    if Unambiguous(t, id, p) {
      ReadsPropString(t, id, p);
      if p == DeviceEnabled {
        ReadsEnabled(t, id);
      }
    }
    if id !in t && |p| > 0 {
      UnknownDeviceListing(t, id, p);
    }
  }

  // ---------------------------------------------------------------- reads against the device table

  /** `get_device_prop_string(deviceNum, propName)`: the numeral of the
      property's value when the name is unambiguous; for an unknown device
      the tool prints nothing and the property is not found. */
  function GetDevicePropString(t: Table, deviceNum: int, propName: string): (r: Result<string>)
    ensures Unambiguous(t, deviceNum, propName) ==>
      PropValue(t, deviceNum, propName).Some? &&
      r == Ok(IntToString(PropValue(t, deviceNum, propName).value))
    ensures deviceNum !in t && |propName| > 0 ==>
      r == Err(ValueError("No " + propName + " property found"))
  {
    ReadsOwnLine(t, deviceNum, propName);
    DevicePropString(ListProps(t, deviceNum), propName)
  }

  /** `int(get_device_prop_string(deviceNum, propName))`, the read
      `set_touchpad_int_property` starts with. */
  function GetIntProperty(t: Table, deviceNum: int, propName: string): (r: Result<int>)
    ensures Unambiguous(t, deviceNum, propName) ==>
      PropValue(t, deviceNum, propName).Some? && r == Ok(PropValue(t, deviceNum, propName).value)
    ensures deviceNum !in t && |propName| > 0 ==>
      r == Err(ValueError("No " + propName + " property found"))
  {
    match GetDevicePropString(t, deviceNum, propName)
    case Err(e) => Err(e)
    case Ok(s) =>
      ParseIntOwnNumeral(t, deviceNum, propName, s);
      Int(s)
  }

  /** The string read for an unambiguous property is a numeral `int()` reads
      back as the stored value. */
  lemma ParseIntOwnNumeral(t: Table, deviceNum: int, propName: string, s: string)
    requires GetDevicePropString(t, deviceNum, propName) == Ok(s)
    ensures Unambiguous(t, deviceNum, propName) ==>
      PropValue(t, deviceNum, propName).Some? && ParseInt(s) == Some(PropValue(t, deviceNum, propName).value)
  {
    if Unambiguous(t, deviceNum, propName) {
      var v := PropValue(t, deviceNum, propName).value;
      ParseIntToString("", v);
      assert "" + IntToString(v) == IntToString(v);
    }
  }

  /** `get_device_active(deviceNum)`: the value of "Device Enabled" when that
      name is unambiguous; for an unknown device the tool prints nothing and
      the output is bad. */
  function GetDeviceActive(t: Table, deviceNum: int): (r: Result<int>)
    ensures Unambiguous(t, deviceNum, DeviceEnabled) ==>
      PropValue(t, deviceNum, DeviceEnabled).Some? &&
      r == Ok(PropValue(t, deviceNum, DeviceEnabled).value)
    ensures deviceNum !in t ==> r == Err(ValueError("Bad output from xinput"))
  {
    ReadsOwnLine(t, deviceNum, DeviceEnabled);
    DeviceActiveValue(ListProps(t, deviceNum))
  }
}

=== FILE: outcomes.dfy ===
/** Python exceptions raised by the program, and the two ways a step can end:
    with a value (or just normally), or by raising one of them. */
module Outcomes {

  /** The exception classes the program raises or lets escape. The message is
      the one the program passes to the exception (or Python's own). */
  datatype Error =
    | ValueError(msg: string)
    | AttributeError(msg: string)
    | IndexError(msg: string)

  /** A computation that returns a value or raises. */
  datatype Result<+T> = Ok(value: T) | Err(error: Error)

  /** A value that may be absent. */
  datatype Option<+T> = None | Some(value: T)

  /** A statement sequence that completes normally or raises. */
  datatype Outcome = Pass | Fail(error: Error)
}

=== FILE: pytext.dfy ===
/** The pieces of Python 2 `str` behaviour the program relies on: the `in`
    operator on strings, `str.split(sep)`, `str.strip()`, `int(s)`, and the
    decimal numerals that `str(n)` produces. */
module PyText {
  import opened Outcomes

  // ---------------------------------------------------------------- characters

  /** Characters `str.isspace()` accepts for a byte string in the C locale. */
  predicate IsSpace(c: char) {
    c == ' ' || c == '\t' || c == '\n' || c == '\r' || c == '\U{b}' || c == '\U{c}'
  }

  predicate IsDigit(c: char) {
    '0' <= c <= '9'
  }

  predicate IsLetter(c: char) {
    ('a' <= c <= 'z') || ('A' <= c <= 'Z')
  }

  predicate AllDigits(s: string) {
    forall m :: 0 <= m < |s| ==> IsDigit(s[m])
  }

  predicate AllSpace(s: string) {
    forall m :: 0 <= m < |s| ==> IsSpace(s[m])
  }

  // ---------------------------------------------------------------- `sub in s`

  /** `sub` occurs in `s` starting at index `i`. */
  predicate ContainsAt(s: string, sub: string, i: int) {
    0 <= i && i + |sub| <= |s| && s[i..i + |sub|] == sub
  }

  /** Python's `sub in s` for strings. */
  predicate Contains(s: string, sub: string) {
    exists i | 0 <= i <= |s| - |sub| :: ContainsAt(s, sub, i)
  }

  lemma ContainsSelf(s: string)
    ensures Contains(s, s)
  {
    assert ContainsAt(s, s, 0);
  }

  /** A string whose first character does not occur in `s` does not occur in
      `s` either. */
  lemma AbsentFirstChar(s: string, sub: string)
    requires |sub| > 0 && sub[0] !in s
    ensures !Contains(s, sub)
  {
    forall i | 0 <= i <= |s| - |sub| ensures !ContainsAt(s, sub, i) {
      assert s[i] in s;
    }
  }

  /** An occurrence in a part is an occurrence in the whole. */
  lemma ContainsInFrame(pre: string, s: string, post: string, sub: string)
    requires Contains(s, sub)
    ensures Contains(pre + s + post, sub)
  {
    var i :| 0 <= i <= |s| - |sub| && ContainsAt(s, sub, i);
    var w := pre + s + post;
    assert w[|pre| + i..|pre| + i + |sub|] == s[i..i + |sub|];
    assert ContainsAt(w, sub, |pre| + i);
  }

  /** A character that `sub` lacks splits every occurrence to one side of it. */
  lemma ContainsAcross(a: string, c: char, b: string, sub: string)
    requires c !in sub && Contains(a + [c] + b, sub)
    ensures Contains(a, sub) || Contains(b, sub)
  {
    var s := a + [c] + b;
    var i :| 0 <= i <= |s| - |sub| && ContainsAt(s, sub, i);
    if i + |sub| <= |a| {
      assert s[i..i + |sub|] == a[i..i + |sub|];
      assert ContainsAt(a, sub, i);
    } else if i > |a| {
      var k := i - |a| - 1;
      assert s[|a| + 1..] == b;
      assert s[i..i + |sub|] == b[k..k + |sub|];
      assert ContainsAt(b, sub, k);
    } else {
      OccurrenceChar(s, sub, i, |a| - i);
      assert false;
    }
  }

  /** Each character of an occurrence is a character of `sub`. */
  lemma OccurrenceChar(s: string, sub: string, i: int, m: int)
    requires ContainsAt(s, sub, i) && 0 <= m < |sub|
    ensures s[i + m] in sub
  {
    assert s[i..i + |sub|][m] == s[i + m];
  }

  /** An occurrence in `s + [c]` that does not end with `c` lies in `s`. */
  lemma ContainsDropLast(s: string, c: char, sub: string)
    requires |sub| > 0 && sub[|sub| - 1] != c && Contains(s + [c], sub)
    ensures Contains(s, sub)
  {
    var w := s + [c];
    var i :| 0 <= i <= |w| - |sub| && ContainsAt(w, sub, i);
    if i + |sub| == |w| {
      assert false;
    }
    assert w[i..i + |sub|] == s[i..i + |sub|];
    assert ContainsAt(s, sub, i);
  }

  // ---------------------------------------------------------------- str.split

  /** Python's `s.split(c)` with an explicit one-character separator: the
      pieces between separators, always at least one. */
  function Split(s: string, c: char): (r: seq<string>)
    ensures |r| >= 1
    ensures forall k :: 0 <= k < |r| ==> c !in r[k]
    decreases |s|
  {
    if |s| == 0 then [""]
    else
      var rest := Split(s[1..], c);
      if s[0] == c then [""] + rest
      else [[s[0]] + rest[0]] + rest[1..]
  }

  /** `c.join(parts)`. */
  function Join(parts: seq<string>, c: char): string
    requires |parts| >= 1
  {
    if |parts| == 1 then parts[0] else parts[0] + [c] + Join(parts[1..], c)
  }

  /** The first piece runs up to the first separator; the others are the
      pieces of what follows it. */
  lemma {:induction false} SplitHead(s: string, c: char, k: nat)
    requires k <= |s| && c !in s[..k] && (k == |s| || s[k] == c)
    ensures Split(s, c)[0] == s[..k]
    ensures k == |s| ==> Split(s, c) == [s]
    ensures k < |s| ==> Split(s, c)[1..] == Split(s[k + 1..], c)
    decreases k
  {
    if |s| == 0 {
    } else if k == 0 {
      assert s[0] == c;
      assert s[1..] == s[k + 1..];
    } else {
      assert s[0] != c by { assert s[0] == s[..k][0]; }
      var rest := Split(s[1..], c);
      assert s[1..][..k - 1] == s[1..k];
      SplitHead(s[1..], c, k - 1);
      assert [s[0]] + s[1..k] == s[..k];
      if k < |s| {
        assert s[1..][k..] == s[k + 1..];
      } else {
        assert [s[0]] + s[1..] == s;
      }
    }
  }

  /** Splitting loses nothing: joining the pieces gives back the string. */
  lemma {:induction false} JoinSplit(s: string, c: char)
    ensures Join(Split(s, c), c) == s
    decreases |s|
  {
    if |s| > 0 {
      var rest := Split(s[1..], c);
      JoinSplit(s[1..], c);
      if s[0] == c {
        assert Split(s, c) == [""] + rest;
        assert ([""] + rest)[1..] == rest;
        assert s == [c] + s[1..];
      } else {
        var r := Split(s, c);
        assert r == [[s[0]] + rest[0]] + rest[1..];
        if |rest| == 1 {
          assert s == [s[0]] + s[1..];
        } else {
          assert r[1..] == rest[1..];
          assert Join(rest, c) == rest[0] + [c] + Join(rest[1..], c);
          assert s == [s[0]] + s[1..];
        }
      }
    }
  }

  /** Splitting inverts joining when no piece holds the separator. */
  lemma {:induction false} SplitJoin(parts: seq<string>, c: char)
    requires |parts| >= 1
    requires forall k :: 0 <= k < |parts| ==> c !in parts[k]
    ensures Split(Join(parts, c), c) == parts
    decreases |parts|
  {
    var s := Join(parts, c);
    if |parts| == 1 {
      SplitHead(s, c, |s|);
    } else {
      var tail := Join(parts[1..], c);
      assert s == parts[0] + [c] + tail;
      var k := |parts[0]|;
      assert s[..k] == parts[0];
      assert s[k + 1..] == tail;
      SplitHead(s, c, k);
      SplitJoin(parts[1..], c);
      assert Split(s, c) == [Split(s, c)[0]] + Split(s, c)[1..];
    }
  }

  /** The last piece is what follows the last separator. */
  lemma {:induction false} SplitLast(s: string, c: char, j: nat)
    requires j <= |s| && (j == 0 || s[j - 1] == c) && c !in s[j..]
    ensures Split(s, c)[|Split(s, c)| - 1] == s[j..]
    decreases |s|
  {
    if |s| == 0 {
    } else if j == 0 {
      assert c !in s[..|s|];
      SplitHead(s, c, |s|);
    } else {
      var rest := Split(s[1..], c);
      assert s[1..][j - 1..] == s[j..];
      if s[0] == c {
        if j == 1 {
          assert s[1..][..|s| - 1] == s[1..];
          SplitHead(s[1..], c, |s| - 1);
        } else {
          assert s[1..][j - 2] == s[j - 1];
          SplitLast(s[1..], c, j - 1);
        }
      } else {
        assert j >= 2;
        assert s[1..][j - 2] == s[j - 1];
        SplitLast(s[1..], c, j - 1);
        var f := FirstIndex(s[1..], c);
        SplitHead(s[1..], c, f);
        assert |rest| >= 2;
      }
    }
  }

  /** Index of the first `c` in `s`, or `|s|` when there is none. */
  function FirstIndex(s: string, c: char): (k: nat)
    ensures k <= |s| && c !in s[..k] && (k == |s| || s[k] == c)
  {
    if |s| == 0 then 0
    else if s[0] == c then 0
    else
      var k := 1 + FirstIndex(s[1..], c);
      assert s[..k] == [s[0]] + s[1..][..k - 1];
      k
  }

  // ---------------------------------------------------------------- str.strip

  /** Number of whitespace characters at the front of `s`. */
  function LeadingSpace(s: string): (n: nat)
    ensures n <= |s|
    ensures forall m :: 0 <= m < n ==> IsSpace(s[m])
    ensures n < |s| ==> !IsSpace(s[n])
  {
    if |s| > 0 && IsSpace(s[0]) then 1 + LeadingSpace(s[1..]) else 0
  }

  /** Number of whitespace characters at the end of `s`. */
  function TrailingSpace(s: string): (n: nat)
    ensures n <= |s|
    ensures forall m :: |s| - n <= m < |s| ==> IsSpace(s[m])
    ensures n < |s| ==> !IsSpace(s[|s| - 1 - n])
  {
    if |s| > 0 && IsSpace(s[|s| - 1]) then 1 + TrailingSpace(s[..|s| - 1]) else 0
  }

  /** Python's `s.strip()`: `s` with the whitespace at both ends removed. */
  function Strip(s: string): (r: string)
    ensures |r| <= |s|
    ensures |r| > 0 ==> !IsSpace(r[0]) && !IsSpace(r[|r| - 1])
  {
    var i := LeadingSpace(s);
    s[i..|s| - TrailingSpace(s[i..])]
  }

  /** `strip()` removes whitespace only: what it drops at either end is all
      whitespace. */
  lemma StripRemovesOnlySpace(s: string)
    ensures exists front, back :: s == front + Strip(s) + back && AllSpace(front) && AllSpace(back)
  {
    var i := LeadingSpace(s);
    var t := s[i..];
    var j := |s| - TrailingSpace(t);
    assert s == s[..i] + s[i..j] + s[j..];
    assert AllSpace(s[..i]);
    assert forall m :: 0 <= m < |s| - j ==> s[j..][m] == t[|t| - (|s| - j) + m];
    assert AllSpace(s[j..]);
  }

  /** Whitespace in front of a word that neither starts nor ends with
      whitespace is exactly what `strip()` removes. */
  lemma StripFront(front: string, w: string)
    requires AllSpace(front)
    requires |w| > 0 && !IsSpace(w[0]) && !IsSpace(w[|w| - 1])
    ensures Strip(front + w) == w
  {
    var s := front + w;
    LeadingSpaceFront(front, w);
    assert s[|front|..] == w;
    assert TrailingSpace(w) == 0;
  }

  /** Whitespace behind a word that does not end with whitespace is exactly
      the trailing whitespace. */
  lemma {:induction false} TrailingSpaceBack(w: string, back: string)
    requires AllSpace(back)
    requires |w| > 0 && !IsSpace(w[|w| - 1])
    ensures TrailingSpace(w + back) == |back|
    decreases |back|
  {
    var s := w + back;
    if |back| > 0 {
      assert s[|s| - 1] == back[|back| - 1];
      assert s[..|s| - 1] == w + back[..|back| - 1];
      TrailingSpaceBack(w, back[..|back| - 1]);
    } else {
      assert s == w;
    }
  }

  /** Whitespace on both sides of a word that neither starts nor ends with
      whitespace is exactly what `strip()` removes. */
  lemma StripAround(front: string, w: string, back: string)
    requires AllSpace(front) && AllSpace(back)
    requires |w| > 0 && !IsSpace(w[0]) && !IsSpace(w[|w| - 1])
    ensures Strip(front + w + back) == w
  {
    var s := front + w + back;
    assert s == front + (w + back);
    LeadingSpaceFront(front, w + back);
    assert s[|front|..] == w + back;
    TrailingSpaceBack(w, back);
    assert s[|front|..|s| - |back|] == w;
  }

  lemma {:induction false} LeadingSpaceFront(front: string, w: string)
    requires AllSpace(front)
    requires |w| > 0 && !IsSpace(w[0])
    ensures LeadingSpace(front + w) == |front|
    decreases |front|
  {
    if |front| > 0 {
      assert (front + w)[0] == front[0];
      assert (front + w)[1..] == front[1..] + w;
      LeadingSpaceFront(front[1..], w);
    } else {
      assert front + w == w;
    }
  }

  // ---------------------------------------------------------------- numerals and int()

  function DigitChar(d: nat): (c: char)
    requires d < 10
    ensures IsDigit(c)
  {
    ('0' as int + d) as char
  }

  /** Value of a run of decimal digits (leading zeros allowed). */
  function DigitsValue(s: string): nat
    requires AllDigits(s)
  {
    if |s| == 0 then 0
    else 10 * DigitsValue(s[..|s| - 1]) + (s[|s| - 1] as int - '0' as int)
  }

  /** `str(n)` for a natural number. */
  function NatToString(n: nat): (r: string)
    ensures |r| > 0 && AllDigits(r)
    ensures DigitsValue(r) == n
    ensures |r| > 1 ==> r[0] != '0'
  {
    if n < 10 then [DigitChar(n)]
    else
      var r := NatToString(n / 10) + [DigitChar(n % 10)];
      assert r[..|r| - 1] == NatToString(n / 10);
      r
  }

  /** `str(v)` for an integer. */
  function IntToString(v: int): (r: string)
    ensures |r| > 0
    ensures forall m :: 0 <= m < |r| ==> IsDigit(r[m]) || r[m] == '-'
    ensures IsDigit(r[|r| - 1])
  {
    if v < 0 then "-" + NatToString(-v) else NatToString(v)
  }

  /** A numeral holds digits and at most a minus sign. */
  lemma NumeralAvoids(v: int, c: char)
    requires !IsDigit(c) && c != '-'
    ensures c !in IntToString(v) && c !in NatToString(if v < 0 then -v else v)
  {
  }

  /** Python 2's `int(s)` on a byte string: optional surrounding whitespace,
      an optional sign, then at least one decimal digit; anything else is a
      ValueError (here `None`). */
  function ParseInt(s: string): (r: Option<int>)
  {
    ParseSigned(Strip(s))
  }

  /** `int()` on the stripped text: an optional sign, then digits only. */
  function ParseSigned(t: string): (r: Option<int>)
  {
    if |t| == 0 then None
    else if t[0] == '-' || t[0] == '+' then
      if |t| >= 2 && AllDigits(t[1..]) then
        var n: int := DigitsValue(t[1..]);
        Some(if t[0] == '-' then -n else n)
      else None
    else if AllDigits(t) then Some(DigitsValue(t))
    else None
  }

  /** The pieces of a decimal literal: whitespace, an optional sign, at least
      one digit, whitespace; `v` is the value the sign and digits denote. */
  predicate LiteralParts(front: string, sign: string, ds: string, back: string, v: int) {
    AllSpace(front) && AllSpace(back) && (sign == "" || sign == "+" || sign == "-") &&
    |ds| > 0 && AllDigits(ds) && v == (if sign == "-" then -(DigitsValue(ds) as int) else DigitsValue(ds))
  }

  /** `s` is a decimal literal with value `v`. */
  ghost predicate Literal(s: string, v: int) {
    exists front, sign, ds, back :: s == front + sign + ds + back && LiteralParts(front, sign, ds, back, v)
  }

  /** A sign and digits read as the value they denote. */
  lemma SignedParses(sign: string, ds: string, v: int)
    requires LiteralParts("", sign, ds, "", v)
    ensures ParseSigned(sign + ds) == Some(v)
  {
    if sign == "" {
      assert sign + ds == ds;
    } else {
      assert (sign + ds)[1..] == ds;
    }
  }

  /** `int()` reads a decimal literal as its value. */
  lemma LiteralParses(front: string, sign: string, ds: string, back: string, v: int)
    requires LiteralParts(front, sign, ds, back, v)
    ensures ParseInt(front + sign + ds + back) == Some(v)
  {
    var w := sign + ds;
    Regroup(front, w, back, sign, ds);
    assert w[|w| - 1] == ds[|ds| - 1];
    StripAround(front, w, back);
    SignedParses(sign, ds, v);
  }

  /** What `int()` accepts of the stripped text is a sign and digits. */
  lemma SignedParts(t: string, v: int)
    requires ParseSigned(t) == Some(v)
    ensures exists sign, ds :: t == sign + ds && LiteralParts("", sign, ds, "", v)
  {
    if t[0] == '-' || t[0] == '+' {
      assert t == t[..1] + t[1..];
      assert LiteralParts("", t[..1], t[1..], "", v);
    } else {
      assert t == "" + t;
      assert LiteralParts("", "", t, "", v);
    }
  }

  /** Splitting the middle of a concatenation in two. */
  lemma Regroup(front: string, t: string, back: string, sign: string, ds: string)
    requires t == sign + ds
    ensures front + t + back == front + sign + ds + back
  {
  }

  /** Whatever `int()` accepts is a decimal literal. */
  lemma ParsedIsLiteral(s: string)
    requires ParseInt(s).Some?
    ensures Literal(s, ParseInt(s).value)
  {
    var v := ParseInt(s).value;
    var t := Strip(s);
    StripRemovesOnlySpace(s);
    var front, back :| s == front + t + back && AllSpace(front) && AllSpace(back);
    SignedParts(t, v);
    var sign, ds :| t == sign + ds && LiteralParts("", sign, ds, "", v);
    Regroup(front, t, back, sign, ds);
    assert LiteralParts(front, sign, ds, back, v);
  }

  /** `int()` accepts exactly the decimal literals, and reads each as its
      value. */
  lemma ParseIntLiteral(s: string, v: int)
    ensures ParseInt(s) == Some(v) <==> Literal(s, v)
  {
    if Literal(s, v) {
      var front, sign, ds, back :| s == front + sign + ds + back && LiteralParts(front, sign, ds, back, v);
      LiteralParses(front, sign, ds, back, v);
    }
    if ParseInt(s) == Some(v) {
      ParsedIsLiteral(s);
    }
  }

  /** `int()` reads a bare digit run as its decimal value. */
  lemma ParseIntDigits(s: string)
    requires |s| > 0 && AllDigits(s)
    ensures ParseInt(s) == Some(DigitsValue(s))
  {
    assert "" + s == s;
    StripFront("", s);
    assert s[0] != '-' && s[0] != '+';
  }

  /** What `int()` looks at in `str(v)`: a sign for negative values, then the
      digits of the magnitude. */
  lemma NumeralParts(v: int)
    ensures var r := IntToString(v);
      && (v < 0 ==> |r| >= 2 && r[0] == '-' && AllDigits(r[1..]) && DigitsValue(r[1..]) == -v)
      && (v >= 0 ==> r[0] != '-' && r[0] != '+' && AllDigits(r) && DigitsValue(r) == v)
  {
    if v < 0 {
      assert IntToString(v)[1..] == NatToString(-v);
    }
  }

  /** `int(str(v)) == v`, also after whitespace in front. */
  lemma ParseIntToString(front: string, v: int)
    requires AllSpace(front)
    ensures ParseInt(front + IntToString(v)) == Some(v)
  {
    var r := IntToString(v);
    assert !IsSpace(r[0]) && !IsSpace(r[|r| - 1]);
    StripFront(front, r);
    NumeralParts(v);
  }

  /** `int(str(v)) == v`. */
  lemma ParseIntNumeral(v: int)
    ensures ParseInt(IntToString(v)) == Some(v)
  {
    ParseIntToString("", v);
    assert "" + IntToString(v) == IntToString(v);
  }
}

=== FILE: select.dfy ===
/** Choosing the one line of a command's output that mentions given
    substrings: the list comprehension `[l for l in lines if ...]` followed by
    the "exactly one match" test the program makes at every call site. */
module Select {
  import opened Outcomes
  import opened PyText

  /** The line mentions every one of `keys` (`k1 in l and k2 in l ...`). */
  predicate Wanted(line: string, keys: seq<string>) {
    forall k :: 0 <= k < |keys| ==> Contains(line, keys[k])
  }

  /** No line is wanted. */
  predicate NoneWanted(lines: seq<string>, keys: seq<string>) {
    forall i :: 0 <= i < |lines| ==> !Wanted(lines[i], keys)
  }

  /** Two different lines are wanted. */
  predicate TwoWanted(lines: seq<string>, keys: seq<string>) {
    exists i, j :: 0 <= i < j < |lines| && Wanted(lines[i], keys) && Wanted(lines[j], keys)
  }

  /** Line `i` is the one and only wanted line. */
  predicate OnlyWanted(lines: seq<string>, keys: seq<string>, i: int) {
    0 <= i < |lines| && Wanted(lines[i], keys) &&
    forall j :: 0 <= j < |lines| && j != i ==> !Wanted(lines[j], keys)
  }

  /** `[l for l in lines if Wanted(l, keys)]`, in order. */
  function Filter(lines: seq<string>, keys: seq<string>): (r: seq<string>)
    ensures |r| <= |lines|
    ensures forall l :: l in r ==> l in lines && Wanted(l, keys)
  {
    if |lines| == 0 then []
    else (if Wanted(lines[0], keys) then [lines[0]] else []) + Filter(lines[1..], keys)
  }

  /** The filtered list is empty exactly when no line is wanted. */
  lemma {:induction false} FilterEmpty(lines: seq<string>, keys: seq<string>)
    ensures |Filter(lines, keys)| == 0 <==> NoneWanted(lines, keys)
    decreases |lines|
  {
    if |lines| > 0 {
      var tail := lines[1..];
      FilterEmpty(tail, keys);
      if NoneWanted(tail, keys) {
        assert forall i :: 1 <= i < |lines| ==> lines[i] == tail[i - 1];
      } else {
        var j :| 0 <= j < |tail| && Wanted(tail[j], keys);
        assert lines[j + 1] == tail[j];
      }
    }
  }

  /** The filtered list has two or more lines exactly when two different
      lines are wanted. */
  lemma {:induction false} FilterTwo(lines: seq<string>, keys: seq<string>)
    ensures |Filter(lines, keys)| >= 2 <==> TwoWanted(lines, keys)
    decreases |lines|
  {
    if |lines| > 0 {
      var tail := lines[1..];
      FilterTwo(tail, keys);
      FilterEmpty(tail, keys);
      if TwoWanted(tail, keys) {
        var i, j :| 0 <= i < j < |tail| && Wanted(tail[i], keys) && Wanted(tail[j], keys);
        assert lines[i + 1] == tail[i] && lines[j + 1] == tail[j];
      }
      if Wanted(lines[0], keys) && !NoneWanted(tail, keys) {
        var j :| 0 <= j < |tail| && Wanted(tail[j], keys);
        assert lines[j + 1] == tail[j];
      }
      if TwoWanted(lines, keys) {
        var i, j :| 0 <= i < j < |lines| && Wanted(lines[i], keys) && Wanted(lines[j], keys);
        assert lines[j] == tail[j - 1];
        if i > 0 {
          assert lines[i] == tail[i - 1];
          assert TwoWanted(tail, keys);
        }
      }
    }
  }

  /** When line `i` is the only wanted line, the filtered list is that line. */
  lemma {:induction false} FilterOnly(lines: seq<string>, keys: seq<string>, i: int)
    requires OnlyWanted(lines, keys, i)
    ensures Filter(lines, keys) == [lines[i]]
    decreases |lines|
  {
    var tail := lines[1..];
    if i == 0 {
      assert NoneWanted(tail, keys) by {
        forall j | 0 <= j < |tail| ensures !Wanted(tail[j], keys) {
          assert tail[j] == lines[j + 1];
        }
      }
      FilterEmpty(tail, keys);
    } else {
      assert OnlyWanted(tail, keys, i - 1) by {
        forall j | 0 <= j < |tail| && j != i - 1 ensures !Wanted(tail[j], keys) {
          assert tail[j] == lines[j + 1];
        }
      }
      FilterOnly(tail, keys, i - 1);
    }
  }

  /** Exactly one line is wanted: it is returned. None, or several: the
      corresponding error is raised. */
  function SelectUnique(lines: seq<string>, keys: seq<string>, none: Error, many: Error): (r: Result<string>)
    ensures r.Ok? <==> exists i :: OnlyWanted(lines, keys, i)
    ensures forall i :: OnlyWanted(lines, keys, i) ==> r == Ok(lines[i])
    ensures NoneWanted(lines, keys) ==> r == Err(none)
    ensures TwoWanted(lines, keys) ==> r == Err(many)
    ensures r.Err? ==> NoneWanted(lines, keys) || TwoWanted(lines, keys)
  {
    FilterEmpty(lines, keys);
    FilterTwo(lines, keys);
    var found := Filter(lines, keys);
    if |found| < 1 then Err(none)
    else if |found| > 1 then Err(many)
    else
      assert found[0] in found;
      var i :| 0 <= i < |lines| && lines[i] == found[0];
      assert OnlyWanted(lines, keys, i);
      FilterOnly(lines, keys, i);
      Ok(found[0])
  }
}

=== FILE: xinput.dfy ===
/** The device-control tool the program drives, as the program sees it: a
    table of input devices, each with named integer properties; the text that
    `xinput list-props <id>` prints for a device; and the three writing
    commands the program issues (`set-prop --type=int`, `enable`, `disable`). */
module Xinput {
  import opened Outcomes
  import opened PyText

  /** One device property: its name, its atom number and its (integer) value. */
  datatype Prop = Prop(name: string, atom: nat, value: int)

  /** A device: its name and its properties in listing order. */
  datatype Device = Device(name: string, props: seq<Prop>)

  /** All devices, by device id. */
  type Table = map<int, Device>

  /** The property `xinput enable` and `xinput disable` write. */
  const DeviceEnabled: string := "Device Enabled"

  // ---------------------------------------------------------------- reading the table

  function Names(ps: seq<Prop>): (r: seq<string>)
    ensures |r| == |ps|
    ensures forall j :: 0 <= j < |ps| ==> r[j] == ps[j].name
  {
    if |ps| == 0 then [] else [ps[0].name] + Names(ps[1..])
  }

  /** Position of the first `n` in `names`. */
  function IndexOf(names: seq<string>, n: string): (r: Option<nat>)
    ensures r.Some? ==> r.value < |names| && names[r.value] == n && n !in names[..r.value]
    ensures r.None? ==> n !in names
  {
    if |names| == 0 then None
    else if names[0] == n then Some(0)
    else match IndexOf(names[1..], n)
      case None => None
      case Some(k) =>
        assert names[..k + 1] == [names[0]] + names[1..][..k];
        Some(k + 1)
  }

  /** The value of the property called exactly `n` on device `id`, if the
      device exists and has such a property. */
  function PropValue(t: Table, id: int, n: string): Option<int> {
    if id !in t then None
    else match IndexOf(Names(t[id].props), n)
      case None => None
      case Some(k) => Some(t[id].props[k].value)
  }

  /** Two tables list the same devices with the same names and the same
      property names in the same order; only values may differ. */
  predicate SameLayout(t: Table, u: Table) {
    t.Keys == u.Keys &&
    forall id :: id in t ==> t[id].name == u[id].name && Names(t[id].props) == Names(u[id].props)
  }

  /** `u` differs from `t` at most in the values, on device `id`, of the
      properties named in `changed`: every atom number is kept, and so is the
      value of every entry (first or later) with another name. */
  ghost predicate Frame(t: Table, u: Table, id: int, changed: set<string>) {
    SameLayout(t, u) &&
    (forall i :: i in t && i != id ==> u[i] == t[i]) &&
    (forall n :: n !in changed ==> PropValue(u, id, n) == PropValue(t, id, n)) &&
    (id in t ==> forall k :: 0 <= k < |t[id].props| ==>
      u[id].props[k].atom == t[id].props[k].atom &&
      (t[id].props[k].name !in changed ==> u[id].props[k].value == t[id].props[k].value))
  }

  lemma FrameChain(t: Table, u: Table, v: Table, id: int, a: set<string>, b: set<string>)
    requires Frame(t, u, id, a) && Frame(u, v, id, b)
    ensures Frame(t, v, id, a + b)
  {
  }

  /** Devices other than `id` keep every property value. */
  lemma FrameOther(t: Table, u: Table, id: int, other: int, n: string)
    requires Frame(t, u, id, {n}) && other != id
    ensures PropValue(u, other, n) == PropValue(t, other, n)
  {
  }

  // ---------------------------------------------------------------- writing

  function UpdateProps(ps: seq<Prop>, n: string, v: int): (r: seq<Prop>)
    ensures |r| == |ps|
    ensures forall j :: 0 <= j < |ps| ==>
      r[j].name == ps[j].name && r[j].atom == ps[j].atom &&
      r[j].value == (if ps[j].name == n then v else ps[j].value)
  {
    if |ps| == 0 then []
    else [if ps[0].name == n then ps[0].(value := v) else ps[0]] + UpdateProps(ps[1..], n, v)
  }

  /** Setting property `n` of device `id` to `v`: every property of that device
      called exactly `n` takes the value `v`. A missing device or property makes
      the tool fail and nothing changes. */
  function SetValue(t: Table, id: int, n: string, v: int): (r: Table)
    ensures Frame(t, r, id, {n})
    ensures PropValue(r, id, n) == (if PropValue(t, id, n).Some? then Some(v) else None)
  {
    if id !in t then t
    else
      var d := t[id];
      var d' := Device(d.name, UpdateProps(d.props, n, v));
      assert Names(d'.props) == Names(d.props);
      t[id := d']
  }

  /** The commands that change device state: `xinput set-prop <id> --type=int
      <name> <value>`, `xinput enable <id>`, `xinput disable <id>`. */
  datatype Write =
    | SetIntProp(id: int, name: string, value: int)
    | Enable(id: int)
    | Disable(id: int)
  {
    /** The property the command writes. */
    function Property(): string {
      if SetIntProp? then name else DeviceEnabled
    }

    /** The value the command writes. */
    function Written(): int {
      match this
      case SetIntProp(_, _, v) => v
      case Enable(_) => 1
      case Disable(_) => 0
    }
  }

  /** `xinput enable` for `true`, `xinput disable` for `false`. */
  function Toggle(id: int, on: bool): (w: Write)
    ensures w.id == id && w.Property() == DeviceEnabled
    ensures w.Written() == if on then 1 else 0
  {
    if on then Enable(id) else Disable(id)
  }

  /** The table after the tool has carried out one command. */
  function Apply(t: Table, w: Write): (r: Table)
    ensures Frame(t, r, w.id, {w.Property()})
    ensures PropValue(r, w.id, w.Property()) ==
      (if PropValue(t, w.id, w.Property()).Some? then Some(w.Written()) else None)
  {
    SetValue(t, w.id, w.Property(), w.Written())
  }

  // ---------------------------------------------------------------- `xinput list-props <id>`

  function HeaderLine(name: string): string {
    "Device '" + name + "':"
  }

  /** The line for one property: tab, name, atom in parentheses, colon, tab, value. */
  function PropLine(p: Prop): string {
    "\t" + p.name + " (" + NatToString(p.atom) + "):\t" + IntToString(p.value)
  }

  function PropLines(ps: seq<Prop>): (r: seq<string>)
    ensures |r| == |ps|
    ensures forall j :: 0 <= j < |ps| ==> r[j] == PropLine(ps[j])
  {
    if |ps| == 0 then [] else [PropLine(ps[0])] + PropLines(ps[1..])
  }

  /** The lines of the listing: a header, one line per property, and the empty
      piece after the final newline. */
  function OutputLines(d: Device): seq<string> {
    [HeaderLine(d.name)] + PropLines(d.props) + [""]
  }

  /** What `xinput list-props <id>` prints: the device's lines, or nothing for
      an unknown device (the tool's complaint goes to standard error). */
  function ListProps(t: Table, id: int): string {
    if id in t then Join(OutputLines(t[id]), '\n') else ""
  }

  // ---------------------------------------------------------------- when a substring names one property

  /** A property name made of letters and spaces, not ending in a space, such
      as "Device Enabled" or "Tap Enable". */
  predicate PlainName(p: string) {
    |p| > 0 && p[|p| - 1] != ' ' &&
    forall m :: 0 <= m < |p| ==> IsLetter(p[m]) || p[m] == ' '
  }

  /** A plain name holds letters and spaces only. */
  lemma PlainNameAvoids(p: string, c: char)
    requires PlainName(p) && !IsLetter(c) && c != ' '
    ensures c !in p
  {
  }

  /** No device or property name breaks the listing into extra lines. */
  predicate OneLineNames(name: string, names: seq<string>) {
    '\n' !in name && forall j :: 0 <= j < |names| ==> '\n' !in names[j]
  }

  /** Property `k` is called `p`, and neither the header nor any other
      property name mentions `p`. */
  predicate OnlyMention(name: string, names: seq<string>, p: string, k: int) {
    0 <= k < |names| && names[k] == p && !Contains(HeaderLine(name), p) &&
    forall j :: 0 <= j < |names| && j != k ==> !Contains(names[j], p)
  }

  /** Device `id` exists, and in its listing exactly the line of the property
      called `p` mentions `p`: a read by substring then finds that property. */
  ghost predicate Unambiguous(t: Table, id: int, p: string) {
    id in t && PlainName(p) && OneLineNames(t[id].name, Names(t[id].props)) &&
    exists k :: OnlyMention(t[id].name, Names(t[id].props), p, k)
  }

  lemma UnambiguousKept(t: Table, u: Table, id: int, p: string)
    requires SameLayout(t, u) && Unambiguous(t, id, p)
    ensures Unambiguous(u, id, p)
  {
  }

  /** When `p` names one property unambiguously, that property has a value. */
  lemma UnambiguousValue(t: Table, id: int, p: string) returns (k: nat)
    requires Unambiguous(t, id, p)
    ensures OnlyMention(t[id].name, Names(t[id].props), p, k)
    ensures PropValue(t, id, p) == Some(t[id].props[k].value)
  {
    k :| OnlyMention(t[id].name, Names(t[id].props), p, k);
    var names := Names(t[id].props);
    var r := IndexOf(names, p);
    if r.Some? && r.value != k {
      ContainsSelf(p);
    }
  }
}
